=== FILE: README.md ===
# GitHub activity analysis — a Dafny model of its core

This project models the core of a small Python tool that analyses a GitHub
user's activity. It has three parts.

- **The API client**, `GitHubClient` in `core/github_client.py`:
  - It keeps a file cache keyed by URL plus the sorted query parameters.
  - It answers fresh entries without a request.
  - It revalidates stale entries with a conditional GET (`If-None-Match` /
    `If-Modified-Since`; sections 3.2 and 3.3 of RFC 7232).
  - It sleeps when the rate-limit quota is exhausted.
  - It pages through a user's or an organisation's repositories until an
    empty page.
- **The repository analyzer**, `RepositoryAnalyzer`:
  - It drops forks and groups repositories by creation year.
  - It summarises each year in ascending order: number of repositories,
    average size, and language counts. The model's snapshot also carries
    the total size the average is taken from. That field is a model
    addition: the source's `RepositorySnapshot` has no total size.
- **The two commit metrics**:
  - `ConsistencyMetric` computes whole-day gaps between consecutive commits
    of each repository, with their mean, standard deviation and coefficient
    of variation.
  - `TimelineMetric` averages those gaps per calendar year.

Everything is a pure function. The client's mutable state is a `Session`:
- the configured TTL;
- the cache directory, as a map from cache key to file content;
- the exchanges the environment will supply to the coming requests, each
  one a clock reading, the server's response and the fate of the cache
  write;
- the log of the requests made so far.

Every `_request` call consumes one exchange. When none is left, the call
ends with `OutOfScript`. That outcome is how the model stops a walk; it is
not an exception of the program.

Modules, one per concern:

| file | module | models |
|---|---|---|
| base.dfy | Base | `Option`, `Result`, the exceptions the code raises |
| strings.dfy | Strings | code-point order of names, `str(int)`/`int(str)`, `sub in s`, `.replace(c, "")` |
| json.dfy | Json | decoded JSON values and Python truthiness |
| fingerprint.dfy | Fingerprint | `_get_cache_path`'s key: URL + `json.dumps(params, sort_keys=True)` |
| cache_store.dfy | CacheStore | `_read_cache`, `_write_cache` and the 304 write |
| rate_limit.dfy | RateLimit | `_handle_rate_limit` as a number of seconds to sleep |
| fetch.dfy | FetchPipeline | one `_request` against a cache, a clock reading and a response |
| client.dfy | Client | `_request` on a session |
| repositories.dfy | Repositories | `Repository` and its decoding from one listing element |
| pagination.dfy | Pagination | `iter_user_repositories`, `iter_org_repositories` |
| dates.dfy | Dates | `sorted(dates)` and the whole-day gaps between consecutive dates |
| commits.dfy | Commits | the commits request and `c["commit"]["author"]["date"]` |
| consistency.dfy | Consistency | `ConsistencyMetric` |
| timeline.dfy | Timeline | `TimelineMetric.yearly_average_gap` |
| analyzer.dfy | Analyzer | `RepositoryAnalyzer` |

Some operations are parameters because their results cannot be computed
here:
- `datetime.fromisoformat`: `fromIso: string -> Option<Instant>`, where None
  stands for its `ValueError`;
- the calendar year of an instant: `yearOf`;
- `round(x, 2)`: `round2`;
- `statistics.stdev`: `stdev`.

`statistics.mean` is modelled exactly, over the reals.

## Model

| member | source | states |
|---|---|---|
| Fingerprint.CacheKey | core/github_client.py:47-57 | Without parameters, or with an empty dict, the key is the URL itself. Otherwise it is the URL followed by a non-empty serialisation of the parameters. |
| Fingerprint.KeyIgnoresInsertionOrder | core/github_client.py:52-54 | Two parameter dicts holding the same pairs give the same key, whatever their insertion order (`sort_keys=True`). |
| Fingerprint.SortByNameSorted | core/github_client.py:54 | With distinct names, sorting yields pairs in strictly ascending code-point order of name. |
| Fingerprint.SortByNamePermutes | core/github_client.py:54 | Sorting the parameters keeps exactly the same pairs. |
| Fingerprint.SortedUnique | core/github_client.py:54 | Two strictly name-sorted sequences of the same pairs are equal, so the sorted form is canonical. |
| Strings.ParseIntOfIntToString | core/github_client.py:91-96 | `int(str(i)) == i` for every integer: the header parser reads back what the decimal renderer writes. |
| Strings.IntToStringInjective | core/github_client.py:54 | Distinct integers serialise to distinct strings. |
| Pagination.PageKeysDistinct | core/github_client.py:148-161 | Two different pages of the same listing have different cache keys, so no page is answered from another page's cache file. |
| CacheStore.Read | core/github_client.py:59-69 | A missing file, a file whose opening or reading fails with OSError, or text that is not JSON is a miss, as is a falsy one (`if cached:`). Any stored entry is returned. |
| CacheStore.Write | core/github_client.py:71-88 | A completed write makes the entry readable. A failed `open` changes nothing. A write interrupted after truncation leaves a miss. No other key's file changes. |
| RateLimit.Trunc | core/github_client.py:97 | `int(x)` of a float truncates toward zero, for both signs. |
| RateLimit.HeaderInt | core/github_client.py:91-96 | `int(headers.get(name, default))`: a missing header gives the default, a present one is what `int()` parses, and a value `int()` rejects raises ValueError. |
| RateLimit.HeaderIntReadsRendered | core/github_client.py:91-96 | A header holding the decimal rendering of an integer reads back as that integer, whatever the default. |
| RateLimit.StallSeconds | core/github_client.py:90-98 | A malformed remaining-quota header raises ValueError. The client sleeps exactly when the remaining quota is at most 0. A missing header never causes a sleep. A sleep lasts at least one second and reaches the reset time, and is never longer than needed for either. A malformed reset header raises only when the quota is exhausted. |
| RateLimit.DrainedQuotaWaitsForReset | core/github_client.py:90-98 | With quota 0 and the reset five seconds ahead of a whole-second clock, the client sleeps five seconds. |
| FetchPipeline.Validators | core/github_client.py:112-118 | `If-None-Match` is sent exactly when the stale entry has an ETag, and carries it. `If-Modified-Since` is sent exactly when it has Last-Modified, and carries that. No other header is added. |
| FetchPipeline.Fetch | core/github_client.py:100-146 | A fresh entry is returned with no request, no sleep and no cache change. Otherwise one GET goes out, conditional exactly when an entry is stored. A 304 on a stored entry returns the old data and re-stamps the entry with the merged headers. Any other non-200 raises with its status. A 200 paces, returns the body and stores it, stamped after the sleep. A failed call never changes the cache. Only this request's file can change. |
| FetchPipeline.RepeatWithinTtlIsHit | core/github_client.py:105-110 | After a stored 200 or 304 with a completed write, the same request within the TTL is answered from the cache: same data, no request, no sleep, no change. |
| FetchPipeline.RevalidationAdvancesTimestamp | core/github_client.py:123-137 | With a non-negative TTL, a 304 never moves an entry's timestamp backwards and keeps its data. |
| FetchPipeline.ErrorKeepsEntries | core/github_client.py:139-146 | A call that raises leaves every cache file as it was. |
| Client.Request | core/github_client.py:100-146 | Every call is logged and keeps the TTL. A call with an exchange left has the effect of Fetch and consumes that exchange. A successful call always consumes one exchange. |
| Repositories.Decode | core/github_client.py:166-175 | A non-object raises TypeError, and an object lacking one of the seven fields raises KeyError. A record comes exactly from an object with all seven fields, well typed. Its encoding then agrees with the object on those fields. |
| Repositories.DecodeEncode | core/github_client.py:166-175 | Decoding the object of a record's seven fields gives back that record. |
| Repositories.DecodeAll | core/github_client.py:166-175 | Records come out in page order, each decoded from the element at its position. The iteration stops at the first element that does not decode, with that element's error. |
| Repositories.DecodeAllEncodeAll | core/github_client.py:166-175 | A page of encoded records decodes to exactly those records, without error. |
| Pagination.PageCallsIndex | core/github_client.py:151-161 | The i-th request of a listing asks for page `first + i` with the same `per_page` and `sort`. |
| Pagination.Pages | core/github_client.py:148-177 | See the bullet list below the table. |
| Pagination.PagesRaises | core/github_client.py:151-175 | A page request that raises is re-raised as it is, with nothing yielded. A truthy page that is not a list raises TypeError. An element that does not decode stops the listing with its error, after the records before it. |
| Pagination.PagesStep | core/github_client.py:163-177 | A falsy page finishes the listing with nothing more yielded. A complete page yields its records and the listing goes on at the next page, from the session that reply left. |
| Pagination.IterUserRepositories | core/github_client.py:148-177 | The user listing satisfies the Pages contract from page 1 at `/users/{name}/repos`. |
| Pagination.IterOrgRepositories | core/github_client.py:179-208 | The organisation listing satisfies the Pages contract from page 1 at `/orgs/{name}/repos`. |
| Pagination.CompleteUntilLastIndex | core/github_client.py:163-177 | Every page fetched before the last was non-empty, a list, and decoded completely. |
| Pagination.ServedListing | core/github_client.py:148-177 | If the server answers uncached pages with the given batches, ending with an empty one, the listing yields their concatenation, in order, and finishes. |
| Commits.Index | core/metrics/consistency.py:38 | `v[key]` succeeds exactly on an object holding the key. A missing key raises KeyError, and any other value raises TypeError. |
| Commits.CommitDate | core/metrics/consistency.py:38-39 | A date comes exactly from a string at `commit.author.date` that parses once every "Z" is removed. A missing step raises KeyError or TypeError. A non-string date raises AttributeError. A rejected string raises ValueError. |
| Strings.WithoutSpec | core/metrics/consistency.py:39 | `.replace("Z", "")` leaves no "Z" and every other character as often as before. |
| Strings.WithoutAbsent | core/metrics/consistency.py:39 | Removing a character that does not occur changes nothing. |
| Strings.WithoutIdempotent | core/metrics/consistency.py:39 | Removing "Z" twice is the same as once. |
| Strings.WithoutAppend | core/metrics/consistency.py:39 | The characters kept stay in their order: removing from a concatenation is removing from each part. |
| Strings.ContainsWitness | core/metrics/consistency.py:37 | `"commit" in s` for a string holds only when "commit" occurs at some position. |
| Strings.ContainsAt | core/metrics/consistency.py:37 | Every occurrence is found by `in`. |
| Strings.ContainsOccurs | core/metrics/consistency.py:37 | `sub in s` holds exactly when `sub` occurs at some position of `s`. |
| Consistency.MentionsCommitSpec | core/metrics/consistency.py:37 | `"commit" in c` tests for a key of an object, an occurrence in a string, or an equal element of a list. None, booleans and numbers are not iterable and raise TypeError. |
| Json.FalsyValues | core/github_client.py:163 | Python truthiness as `if not data` reads it: the falsy values are exactly None, False, 0, "", [] and {}. The same test is `if cached:` at core/github_client.py:106 and `if not commits` at core/metrics/consistency.py:33. |
| Consistency.TolerantDatesSpec | core/metrics/consistency.py:36-41 | The loop completes exactly when every element is skipped or yields a date. It then holds one date per element mentioning "commit", in list order. |
| Consistency.CommitDatesOf | core/metrics/consistency.py:23-41 | A request that raises gives no dates, and so does an empty or non-list response. A non-empty list goes through the loop, whose exceptions escape. |
| Consistency.SourceOf | core/metrics/consistency.py:46-51 | Given repositories are used when the list is non-empty. Otherwise a non-empty user name is listed. Otherwise there are no gaps. |
| Consistency.ConcatGaps | core/metrics/consistency.py:53-56 | Every gap is a non-negative number of days. |
| Consistency.ConcatGapsCount | core/metrics/consistency.py:53-56 | A repository with n dates contributes max(n - 1, 0) gaps. |
| Consistency.RepoGaps | core/metrics/consistency.py:53-56 | The commits of each repository are requested in listing order, each from the session the previous request left. Every date list used is the one that repository's reply gave. A run that raises stops at the first repository whose dates raised, with that error. A completed run has one date list per repository, and its gaps are those lists' sorted-date gaps, concatenated in order. Its log then holds one commits request per repository, in order. |
| Consistency.FailedFetchAddsNoGaps | core/metrics/consistency.py:24-30 | A commits request that raises is swallowed: the run's outcome is that of the remaining repositories, from the session after the failed request. |
| Consistency.CommitGaps | core/metrics/consistency.py:43-58 | Given repositories are used without listing. A user name is listed first, and a listing that raises is raised. With neither there are no gaps and no requests. All gaps are non-negative. |
| Consistency.MeanSign | core/metrics/consistency.py:78-80 | For day gaps the mean is non-negative, and it is 0 exactly when every gap is 0. |
| Consistency.MeanBounds | core/metrics/consistency.py:64 | The mean lies between the smallest and the largest gap. |
| Consistency.AverageOf | core/metrics/consistency.py:60-64 | No gaps: 0.0. All gaps 0 days: 0 (if rounding keeps 0). |
| Consistency.VarianceOf | core/metrics/consistency.py:66-70 | Fewer than two gaps: 0.0. |
| Consistency.VariationOf | core/metrics/consistency.py:72-82 | Fewer than two gaps: 0.0. The `avg == 0` guard fires exactly when every gap is 0 days. Otherwise the mean is positive and the ratio is taken. |
| Consistency.AverageGapDays | core/metrics/consistency.py:60-64 | The metric fetches the gaps afresh and averages them. Exceptions pass through. With no source the result is 0.0 without a request. |
| Consistency.GapVariance | core/metrics/consistency.py:66-70 | The same, with the variance guard. |
| Consistency.CoefficientOfVariation | core/metrics/consistency.py:72-82 | The same, and all-zero gaps give 0.0. |
| Dates.DaysBetween | core/metrics/consistency.py:56 | `(b - a).days` is the difference rounded down to whole days. |
| Dates.GapsIndex | core/metrics/consistency.py:55-56 | Gap i is the whole days from date i to date i + 1. |
| Dates.SortDatesSpec | core/metrics/consistency.py:54 | `sorted(dates)` holds the same dates in ascending order. |
| Dates.SortedUnique | core/metrics/consistency.py:54 | Two ascending runs of the same dates are equal. |
| Dates.DateGaps | core/metrics/consistency.py:54-56 | A repository with n dates gives max(n - 1, 0) gaps, none negative. |
| Dates.DateGapsIgnoreOrder | core/metrics/consistency.py:54-56 | The gaps depend only on which dates there are, not on the order the API returned them in. |
| Dates.GapsWithinSpan | core/metrics/consistency.py:55-56 | The gaps add up to at most the whole-day span from first to last date, and lose less than a day per date. |
| Timeline.AttributedIndex | core/metrics/timeline.py:30-33 | Gap i of a repository is filed under the year of date i + 1. |
| Timeline.AddGapsGet | core/metrics/timeline.py:15-33 | Appending to `gaps_by_year` adds each gap to the end of its own year's list, and to no other list. |
| Timeline.AddGapsKeys | core/metrics/timeline.py:15-33 | Exactly the years that receive a gap are created. |
| Timeline.BucketizeGet | core/metrics/timeline.py:19-33 | A year holds the gaps filed under it, repository by repository, in order. |
| Timeline.BucketizeKeys | core/metrics/timeline.py:19-33 | A year is present exactly when it holds a gap. |
| Timeline.AllDates | core/metrics/timeline.py:25-28 | The generator completes exactly when every element has a date. The dates are then in list order, and otherwise some element's error escapes. |
| Timeline.AllDatesFirstError | core/metrics/timeline.py:25-28 | The error that escapes is the first failing element's. |
| Timeline.StrictDates | core/metrics/timeline.py:25-28 | A list is read element by element. A non-empty object or string raises TypeError, an empty one gives no dates, and any other value is not iterable. |
| Timeline.StrictRejectsWhatTolerantSkips | core/metrics/timeline.py:25-28 | Take a commit list whose element k is an object without "commit", with every earlier element dated. The consistency metric's check skips element k, but the timeline's generator raises KeyError on that list. |
| Timeline.MissingCommitRaises | core/metrics/timeline.py:19-28 | Take the first repository of the first page, and commits for it with an element lacking "commit" and every earlier element dated. Then `yearly_average_gap` raises KeyError, while the consistency metric skips that element. |
| Timeline.WalkPages | core/metrics/timeline.py:17-33 | A completed walk fetched pages until an empty one, with every page before it complete. It took one date list per record yielded, and its buckets are those records' gaps, filed in listing order. |
| Timeline.WalkRecords | core/metrics/timeline.py:19-33 | The same for the rest of one page: its elements all decoded, and the records walked are the page's records followed by the later pages'. |
| Timeline.PageStep | core/github_client.py:151-166 | A page request that raises ends the walk with its error. A falsy page ends the walk with the buckets built so far. A truthy page that is not a list raises TypeError. A list page hands the walk to its records, nothing caught. |
| Timeline.RecordFailureRaises | core/metrics/timeline.py:19-28 | A record that does not decode, a commits request that raises, or a commit list the generator cannot read ends the walk with that error. |
| Timeline.RecordReadContinues | core/metrics/timeline.py:19-33 | A record whose commits were read is walked with exactly the dates its reply gave. Its gaps are filed before the walk goes on from the session after that reply. The rest of the walk's outcome, pages and final session are the walk's. |
| Timeline.PageEndContinues | core/github_client.py:166-177 | After a page's last record the walk requests the next page, from the session the last commits reply left, with the buckets built so far. |
| Timeline.Averages | core/metrics/timeline.py:35-39 | Exactly the years with a non-empty list appear, each mapped to the rounded mean of its gaps. |
| Timeline.YearlyAverageGap | core/metrics/timeline.py:14-39 | The averages of a completed walk of the user's repositories from page 1. Exceptions pass through. |
| Timeline.YearlyAverageGapSpec | core/metrics/timeline.py:14-39 | The years reported are exactly those in which some gap ends. Each maps to the rounded mean of those gaps, taken over the repositories in listing order. |
| Analyzer.FilterRelevant | core/repository_analyzer.py:21-28 | Exactly the non-forks are kept. |
| Analyzer.FilterRelevantAppend | core/repository_analyzer.py:21-28 | The order is kept: filtering a concatenation filters each part. |
| Analyzer.FilterRelevantIdempotent | core/repository_analyzer.py:21-28 | Filtering twice is filtering once. |
| Analyzer.GroupIntoOk | core/repository_analyzer.py:33-37 | Grouping completes exactly when every creation date parses, and raises ValueError otherwise. |
| Analyzer.GroupIntoGet | core/repository_analyzer.py:33-37 | Each year's list gains that year's records, in order. |
| Analyzer.GroupIntoWellFormed | core/repository_analyzer.py:30-39 | The years are listed once each, they are exactly the keys, and no group is empty. |
| Analyzer.GroupByYear | core/repository_analyzer.py:30-39 | It raises exactly when some non-fork's date fails to parse. Otherwise each year maps to the non-forks created in it, in order, and exactly the years with such a record are present. |
| Analyzer.CountIntoSpec | core/repository_analyzer.py:48-51 | Each language is counted once per record with that non-empty language. |
| Analyzer.Languages | core/repository_analyzer.py:48-51 | Exactly the languages some record has appear, each with its count. |
| Analyzer.LanguagesBound | core/repository_analyzer.py:48-51 | A record adds one to at most one language: the counts of any distinct languages add up to at most the number of records. |
| Analyzer.SortedYears | core/repository_analyzer.py:44 | The years come strictly ascending, and they are exactly the grouped years. |
| Analyzer.DistinctSortedStrict | core/repository_analyzer.py:44 | Sorting distinct years gives a strictly ascending run. |
| Analyzer.YearlySnapshots | core/repository_analyzer.py:41-62 | It raises exactly when grouping does. Otherwise there is one snapshot per year in which some non-fork was created, in ascending order. Each snapshot counts, sizes and tallies the languages of exactly that year's non-forks. |
| Analyzer.SnapshotsCountEveryRecord | core/repository_analyzer.py:44-56 | Every non-fork is counted in exactly one snapshot: the totals add up to the number of non-forks. |
| Analyzer.SnapshotLanguagesBound | core/repository_analyzer.py:44-58 | In every snapshot the language counts add up to at most `total_repos`. |

The contract of `Pagination.Pages` says:
- The records come out in page order: the concatenation of every fetched
  page's records.
- Every page before the last was complete.
- The listing finishes exactly when the last page fetched is empty.
- Pages are requested in order from `page` on: one request per fetched
  page, plus at most one request that raised.

## Left out

- The md5 digest and the file path of a cache key are left out, along with
  `os.makedirs`. Files are keyed by the canonical key string itself, and
  `Pagination.PageKeysDistinct` states distinctness of those strings. md5
  collisions are not modelled.
- Header lookups are exact-name. The case-insensitive dictionary of the HTTP
  library is not modelled.
- `int()` on a header accepts an optional sign and ASCII digits. Its
  whitespace, underscore and non-ASCII digit forms are not modelled.
- The parameters are modelled as integers and plain strings. `json.dumps`
  escaping of quotes and non-ASCII characters in parameter values is not
  modelled, because the client only passes integers and "updated".
- CacheStore.Read: cache files that make `_request` raise are not modelled.
  The model reads each file as missing, corrupt, falsy or a complete entry.
  In the source, some files raise instead of being a miss:
  - Bytes that are not UTF-8 raise UnicodeDecodeError. The `except` at
    core/github_client.py:67 catches only JSONDecodeError and OSError.
  - A truthy JSON value that is not an object (`[1]`, `"x"`, `5`, `true`)
    raises TypeError at `cached["timestamp"]` (line 107).
  - An object without `timestamp` or `headers` raises KeyError (lines 107
    and 113). One without `data` raises KeyError when fresh (line 110).
  - A `timestamp` that is not a number raises TypeError at the subtraction
    (line 107). A stale entry whose `headers` is a number, a boolean or null
    raises TypeError at the `in` test (line 113).

  The client itself only writes complete entries, with a numeric timestamp
  and an object of headers, through `json.dump`, whose default output is
  ASCII. So only a file changed from outside the client can raise, and
  the model has no file kind for it.
- Repositories.Decode: a listing element whose seven fields are present
  but of unexpected JSON kinds raises TypeError. The source copies any value
  into the record unchanged. Pagination.Pages inherits this: its listing
  stops with TypeError at such an element, where the source would yield it
  and go on.
- The transport, the `requests.Session`, authentication and the `Accept`
  header are not modelled. Exceptions raised by `session.get` itself, such
  as a connection failure or a timeout, are not modelled either: every
  exchange carries a response. Network latency is not modelled: each call reads
  the clock once, plus once more after the rate-limit sleep.
- `OutOfScript` is how the model ends a walk when the environment supplies
  no more responses. It is not an exception of the program.
- Floating point is not modelled: the mean is exact over the reals, and
  `round(x, 2)` and `statistics.stdev` are parameters.
  `datetime.fromisoformat` and the calendar year are parameters too.
  Microsecond precision is not modelled: instants are whole seconds.
- Time zones are not modelled. `fromisoformat` gives an aware datetime for
  a string with an offset such as "+02:00", and a naive one otherwise.
  Sorting or subtracting a mix of the two raises TypeError in the source.
  Here every parsed date is one comparable instant. `.year` of an aware
  datetime is the year on its own wall clock, which `yearOf` stands for.
- Consistency.VarianceOf: only the length guard is stated, because
  `statistics.stdev` is a parameter.
- Consistency.RepoGaps: the request log is stated only for a run that
  completes. A run that raised has logged a prefix of those requests.
- Pagination.Pages: the contract states the shape of a listing: records in
  page order, complete pages before the last, and the pages requested in
  order. It does not say which reply each page came from. The lemmas
  Pagination.PagesStep and Pagination.PagesRaises state that one request at
  a time, for every branch. For a whole listing it is stated only by
  Pagination.ServedListing, for uncached pages answered with 200.
- Timeline.WalkPages and Timeline.WalkRecords: the contracts state what a
  completed walk visited, not which reply each step used. The step lemmas
  state that one request at a time: Timeline.PageStep for a listing page,
  Timeline.RecordFailureRaises and Timeline.RecordReadContinues for a
  record, and Timeline.PageEndContinues for the move to the next page.
  A whole-walk lemma for a scripted server, like Pagination.ServedListing,
  is not given. The walk interleaves listing pages with commit lists, and
  any reply may come from the cache. The order of the interleaved requests
  in the log is not stated.
- Analyzer.YearlySnapshots: `avg_size_kb` is `round2` of the exact total
  divided by the count. No float semantics are modelled.
- The iteration order of the result dicts (`group_by_year`, the languages
  dict, the yearly averages) is not modelled: they are maps. The grouping
  lists its years separately, but the order of that list is not stated.
- The command-line entry point, report rendering and plotting are not part
  of this model.

=== FILE: analyzer.dfy ===
/** `RepositoryAnalyzer` (core/repository_analyzer.py): drop forks, group the
    remaining repositories by the calendar year they were created in, and
    summarise each year in ascending order.

    Reading a creation date is `datetime.fromisoformat(created_at.replace("Z",
    ""))`: the parser is a parameter `fromIso` (None for its ValueError), and
    the calendar year of an instant is a parameter `yearOf`, as in the
    timeline metric. `round(x, 2)` is a parameter `round2`. */
module Analyzer {
  import opened Base
  import opened Strings
  import opened Repositories
  import opened Dates

  // ---------------------------------------------------------------------------
  // _filter_relevant
  // ---------------------------------------------------------------------------

  /** `[repo for repo in self.repositories if not repo.is_fork]`. */
  function FilterRelevant(repos: seq<Repository>): (r: seq<Repository>)
    // Exactly the non-forks are kept ...
    ensures forall x :: x in r <==> x in repos && !x.isFork
    ensures |r| <= |repos|
    decreases |repos|
  {
    if |repos| == 0 then []
    else (if repos[0].isFork then [] else [repos[0]]) + FilterRelevant(repos[1..])
  }

  /** ... in their original order: filtering a concatenation filters each part. */
  lemma {:induction false} FilterRelevantAppend(a: seq<Repository>, b: seq<Repository>)
    ensures FilterRelevant(a + b) == FilterRelevant(a) + FilterRelevant(b)
    decreases |a|
  {
    if |a| > 0 {
      assert (a + b)[1..] == a[1..] + b;
      FilterRelevantAppend(a[1..], b);
      AppendAssoc(if a[0].isFork then [] else [a[0]], FilterRelevant(a[1..]), FilterRelevant(b));
    } else {
      assert a + b == b;
    }
  }

  /** Filtering again removes nothing more. */
  lemma {:induction false} FilterRelevantIdempotent(repos: seq<Repository>)
    ensures FilterRelevant(FilterRelevant(repos)) == FilterRelevant(repos)
    decreases |repos|
  {
    if |repos| > 0 {
      var head := if repos[0].isFork then [] else [repos[0]];
      FilterRelevantAppend(head, FilterRelevant(repos[1..]));
      FilterRelevantIdempotent(repos[1..]);
      assert FilterRelevant(head) == head by {
        if !repos[0].isFork {
          assert head[1..] == [];
        }
      }
    }
  }

  // ---------------------------------------------------------------------------
  // group_by_year
  // ---------------------------------------------------------------------------

  /** The creation year of a record, or the parser's ValueError. */
  function CreatedYear(r: Repository, fromIso: string -> Option<Instant>, yearOf: Instant -> int): Result<int> {
    match fromIso(Without(r.createdAt, 'Z'))
    case None => Err(ValueError)
    case Some(t) => Ok(yearOf(t))
  }

  /** The records created in year `y`, in order. */
  function OfYear(rs: seq<Repository>, y: int, fromIso: string -> Option<Instant>, yearOf: Instant -> int): (g: seq<Repository>)
    ensures |g| <= |rs|
    decreases |rs|
  {
    if |rs| == 0 then []
    else (if CreatedYear(rs[0], fromIso, yearOf) == Ok(y) then [rs[0]] else []) + OfYear(rs[1..], y, fromIso, yearOf)
  }

  /** Every record's creation date parses. */
  predicate AllDated(rs: seq<Repository>, fromIso: string -> Option<Instant>, yearOf: Instant -> int) {
    forall i :: 0 <= i < |rs| ==> CreatedYear(rs[i], fromIso, yearOf).Ok?
  }

  /** `dict(grouped)`: the years met, each listed once, and each year's
      records. */
  datatype Grouping = Grouping(years: seq<int>, groups: map<int, seq<Repository>>)

  predicate Distinct<T(==)>(s: seq<T>) {
    forall i, j :: 0 <= i < j < |s| ==> s[i] != s[j]
  }

  /** The years listed are the keys, each once, and no group is empty. */
  ghost predicate WellFormed(g: Grouping) {
    && Distinct(g.years)
    && (forall y :: y in g.groups <==> y in g.years)
    && (forall y :: y in g.groups ==> |g.groups[y]| > 0)
  }

  function GetGroup(g: Grouping, y: int): seq<Repository> {
    if y in g.groups then g.groups[y] else []
  }

  /** `grouped[year].append(repo)`. */
  function AddTo(g: Grouping, y: int, r: Repository): Grouping {
    if y in g.groups then Grouping(g.years, g.groups[y := g.groups[y] + [r]])
    else Grouping(g.years + [y], g.groups[y := [r]])
  }

  /** The loop over the records, stopping at the first unreadable date. */
  function GroupInto(g: Grouping, rs: seq<Repository>, fromIso: string -> Option<Instant>, yearOf: Instant -> int): Result<Grouping>
    decreases |rs|
  {
    if |rs| == 0 then Ok(g)
    else
      match CreatedYear(rs[0], fromIso, yearOf)
      case Err(e) => Err(e)
      case Ok(y) => GroupInto(AddTo(g, y, rs[0]), rs[1..], fromIso, yearOf)
  }

  /** The loop completes exactly when every date parses, and raises
      ValueError otherwise. */
  lemma {:induction false} GroupIntoOk(g: Grouping, rs: seq<Repository>, fromIso: string -> Option<Instant>, yearOf: Instant -> int)
    ensures GroupInto(g, rs, fromIso, yearOf).Ok? <==> AllDated(rs, fromIso, yearOf)
    ensures GroupInto(g, rs, fromIso, yearOf).Err? ==> GroupInto(g, rs, fromIso, yearOf).error == ValueError
    decreases |rs|
  {
    if |rs| > 0 {
      assert forall i :: 1 <= i < |rs| ==> rs[i] == rs[1..][i - 1];
      if CreatedYear(rs[0], fromIso, yearOf).Ok? {
        GroupIntoOk(AddTo(g, CreatedYear(rs[0], fromIso, yearOf).value, rs[0]), rs[1..], fromIso, yearOf);
      }
    }
  }

  /** Each year's group gains that year's records, in order. */
  lemma {:induction false} GroupIntoGet(g: Grouping, rs: seq<Repository>, fromIso: string -> Option<Instant>, yearOf: Instant -> int, y: int)
    requires GroupInto(g, rs, fromIso, yearOf).Ok?
    ensures GetGroup(GroupInto(g, rs, fromIso, yearOf).value, y) == GetGroup(g, y) + OfYear(rs, y, fromIso, yearOf)
    decreases |rs|
  {
    if |rs| > 0 {
      var g1 := AddTo(g, CreatedYear(rs[0], fromIso, yearOf).value, rs[0]);
      assert GroupInto(g, rs, fromIso, yearOf) == GroupInto(g1, rs[1..], fromIso, yearOf);
      GroupIntoGet(g1, rs[1..], fromIso, yearOf, y);
      AddToGet(g, rs, fromIso, yearOf, y);
    } else {
      assert GetGroup(g, y) + [] == GetGroup(g, y);
    }
  }

  /** Filing the first record moves it from the records still to come to
      its year's group. */
  lemma AddToGet(g: Grouping, rs: seq<Repository>, fromIso: string -> Option<Instant>, yearOf: Instant -> int, y: int)
    requires |rs| > 0 && CreatedYear(rs[0], fromIso, yearOf).Ok?
    ensures GetGroup(AddTo(g, CreatedYear(rs[0], fromIso, yearOf).value, rs[0]), y) + OfYear(rs[1..], y, fromIso, yearOf)
         == GetGroup(g, y) + OfYear(rs, y, fromIso, yearOf)
  {
    if CreatedYear(rs[0], fromIso, yearOf).value == y {
      AddToSameYear(g, rs, fromIso, yearOf, y);
    } else {
      AddToOtherYear(g, rs, fromIso, yearOf, y);
    }
  }

  lemma AddToSameYear(g: Grouping, rs: seq<Repository>, fromIso: string -> Option<Instant>, yearOf: Instant -> int, y: int)
    requires |rs| > 0 && CreatedYear(rs[0], fromIso, yearOf) == Ok(y)
    ensures GetGroup(AddTo(g, y, rs[0]), y) + OfYear(rs[1..], y, fromIso, yearOf)
         == GetGroup(g, y) + OfYear(rs, y, fromIso, yearOf)
  {
    AddToGroup(g, y, rs[0]);
    assert OfYear(rs, y, fromIso, yearOf) == [rs[0]] + OfYear(rs[1..], y, fromIso, yearOf);
    AppendAssoc(GetGroup(g, y), [rs[0]], OfYear(rs[1..], y, fromIso, yearOf));
  }

  lemma AddToOtherYear(g: Grouping, rs: seq<Repository>, fromIso: string -> Option<Instant>, yearOf: Instant -> int, y: int)
    requires |rs| > 0 && CreatedYear(rs[0], fromIso, yearOf).Ok? && CreatedYear(rs[0], fromIso, yearOf).value != y
    ensures GetGroup(AddTo(g, CreatedYear(rs[0], fromIso, yearOf).value, rs[0]), y) + OfYear(rs[1..], y, fromIso, yearOf)
         == GetGroup(g, y) + OfYear(rs, y, fromIso, yearOf)
  {
    AddToOther(g, CreatedYear(rs[0], fromIso, yearOf).value, rs[0], y);
    OfYearSkip(rs, y, fromIso, yearOf);
  }

  lemma OfYearSkip(rs: seq<Repository>, y: int, fromIso: string -> Option<Instant>, yearOf: Instant -> int)
    requires |rs| > 0 && CreatedYear(rs[0], fromIso, yearOf) != Ok(y)
    ensures OfYear(rs, y, fromIso, yearOf) == OfYear(rs[1..], y, fromIso, yearOf)
  {
    assert OfYear(rs, y, fromIso, yearOf) == [] + OfYear(rs[1..], y, fromIso, yearOf);
  }

  /** Filing a record appends it to its own year's group ... */
  lemma AddToGroup(g: Grouping, y: int, r: Repository)
    ensures GetGroup(AddTo(g, y, r), y) == GetGroup(g, y) + [r]
  {
  }

  /** ... and leaves every other year's group alone. */
  lemma AddToOther(g: Grouping, yr: int, r: Repository, y: int)
    requires yr != y
    ensures GetGroup(AddTo(g, yr, r), y) == GetGroup(g, y)
  {
  }

  /** Adding a record keeps the grouping well formed. */
  lemma AddToWellFormed(g: Grouping, y: int, r: Repository)
    requires WellFormed(g)
    ensures WellFormed(AddTo(g, y, r))
  {
    if y !in g.groups {
      var ys := g.years + [y];
      assert forall i :: 0 <= i < |g.years| ==> ys[i] == g.years[i];
      assert forall x :: x in ys <==> x in g.years || x == y;
    }
  }

  lemma {:induction false} GroupIntoWellFormed(g: Grouping, rs: seq<Repository>, fromIso: string -> Option<Instant>, yearOf: Instant -> int)
    requires WellFormed(g)
    requires GroupInto(g, rs, fromIso, yearOf).Ok?
    ensures WellFormed(GroupInto(g, rs, fromIso, yearOf).value)
    decreases |rs|
  {
    if |rs| > 0 {
      var yr := CreatedYear(rs[0], fromIso, yearOf).value;
      AddToWellFormed(g, yr, rs[0]);
      GroupIntoWellFormed(AddTo(g, yr, rs[0]), rs[1..], fromIso, yearOf);
    }
  }

  /** `analyzer.group_by_year()`. */
  function GroupByYear(repos: seq<Repository>, fromIso: string -> Option<Instant>, yearOf: Instant -> int): (r: Result<Grouping>)
    // It raises ValueError exactly when some non-fork's date does not parse.
    ensures r.Ok? <==> AllDated(FilterRelevant(repos), fromIso, yearOf)
    ensures r.Err? ==> r.error == ValueError
    // Each year maps to the non-forks created in it, in order; the years
    // present are exactly those with such a record.
    ensures r.Ok? ==> WellFormed(r.value)
    ensures r.Ok? ==> forall y :: GetGroup(r.value, y) == OfYear(FilterRelevant(repos), y, fromIso, yearOf)
  {
    var rs := FilterRelevant(repos);
    var r := GroupInto(Grouping([], map[]), rs, fromIso, yearOf);
    GroupIntoOk(Grouping([], map[]), rs, fromIso, yearOf);
    if r.Ok? then
      GroupIntoWellFormed(Grouping([], map[]), rs, fromIso, yearOf);
      GroupIntoGetAll(rs, fromIso, yearOf);
      r
    else r
  }

  lemma GroupIntoGetAll(rs: seq<Repository>, fromIso: string -> Option<Instant>, yearOf: Instant -> int)
    requires GroupInto(Grouping([], map[]), rs, fromIso, yearOf).Ok?
    ensures forall y :: GetGroup(GroupInto(Grouping([], map[]), rs, fromIso, yearOf).value, y) == OfYear(rs, y, fromIso, yearOf)
  {
    forall y
      ensures GetGroup(GroupInto(Grouping([], map[]), rs, fromIso, yearOf).value, y) == OfYear(rs, y, fromIso, yearOf)
    {
      GroupIntoGet(Grouping([], map[]), rs, fromIso, yearOf, y);
      assert [] + OfYear(rs, y, fromIso, yearOf) == OfYear(rs, y, fromIso, yearOf);
    }
  }

  // ---------------------------------------------------------------------------
  // yearly_snapshots
  // ---------------------------------------------------------------------------

  /** A `RepositorySnapshot`, with the total size the average is taken from. */
  datatype Snapshot = Snapshot(year: int, totalRepos: nat, totalSizeKb: int, avgSizeKb: real,
                               languages: map<string, nat>)

  function TotalSize(rs: seq<Repository>): int
    decreases |rs|
  {
    if |rs| == 0 then 0 else rs[0].sizeKb + TotalSize(rs[1..])
  }

  /** `if repo.language`: a language that is present and non-empty. */
  predicate Speaks(r: Repository, l: string) {
    r.language == Some(l) && |l| > 0
  }

  /** How many records speak `l`. */
  function LangCount(rs: seq<Repository>, l: string): (n: nat)
    ensures n <= |rs|
    decreases |rs|
  {
    if |rs| == 0 then 0 else (if Speaks(rs[0], l) then 1 else 0) + LangCount(rs[1..], l)
  }

  function GetCount(m: map<string, nat>, l: string): nat {
    if l in m then m[l] else 0
  }

  /** `languages[repo.language] += 1` for each record with a language. */
  function CountInto(m: map<string, nat>, rs: seq<Repository>): map<string, nat>
    decreases |rs|
  {
    if |rs| == 0 then m
    else if rs[0].language.Some? && |rs[0].language.value| > 0 then
      var l := rs[0].language.value;
      CountInto(m[l := GetCount(m, l) + 1], rs[1..])
    else CountInto(m, rs[1..])
  }

  /** Every language is counted once per record speaking it, and present
      exactly when some record (or the start) has it. */
  lemma {:induction false} CountIntoSpec(m: map<string, nat>, rs: seq<Repository>, l: string)
    ensures GetCount(CountInto(m, rs), l) == GetCount(m, l) + LangCount(rs, l)
    ensures l in CountInto(m, rs) <==> l in m || LangCount(rs, l) > 0
    decreases |rs|
  {
    if |rs| > 0 {
      if rs[0].language.Some? && |rs[0].language.value| > 0 {
        var k := rs[0].language.value;
        CountIntoSpec(m[k := GetCount(m, k) + 1], rs[1..], l);
      } else {
        CountIntoSpec(m, rs[1..], l);
      }
    }
  }

  /** The `languages` dict of one year. */
  function Languages(rs: seq<Repository>): (m: map<string, nat>)
    ensures forall l :: l in m <==> LangCount(rs, l) > 0
    ensures forall l :: l in m ==> m[l] == LangCount(rs, l)
  {
    forall l ensures GetCount(CountInto(map[], rs), l) == LangCount(rs, l)
                  && (l in CountInto(map[], rs) <==> LangCount(rs, l) > 0) {
      CountIntoSpec(map[], rs, l);
    }
    CountInto(map[], rs)
  }

  /** The counts of the languages `ls` in a tally, added up. */
  function Tally(m: map<string, nat>, ls: seq<string>): nat
    decreases |ls|
  {
    if |ls| == 0 then 0 else GetCount(m, ls[0]) + Tally(m, ls[1..])
  }

  /** How many of the languages `ls` a record speaks. */
  function Spoken(r: Repository, ls: seq<string>): nat
    decreases |ls|
  {
    if |ls| == 0 then 0 else (if Speaks(r, ls[0]) then 1 else 0) + Spoken(r, ls[1..])
  }

  lemma {:induction false} SpokenNone(r: Repository, ls: seq<string>)
    requires forall i :: 0 <= i < |ls| ==> !Speaks(r, ls[i])
    ensures Spoken(r, ls) == 0
    decreases |ls|
  {
    if |ls| > 0 {
      SpokenNone(r, ls[1..]);
    }
  }

  /** A record has one language, so it speaks at most one of several
      distinct ones. */
  lemma {:induction false} SpokenAtMostOne(r: Repository, ls: seq<string>)
    requires Distinct(ls)
    ensures Spoken(r, ls) <= 1
    decreases |ls|
  {
    if |ls| > 0 {
      assert Distinct(ls[1..]) by {
        assert forall i :: 0 <= i < |ls| - 1 ==> ls[1..][i] == ls[i + 1];
      }
      if Speaks(r, ls[0]) {
        assert forall i :: 0 <= i < |ls| - 1 ==> ls[1..][i] == ls[i + 1] && ls[i + 1] != ls[0];
        SpokenNone(r, ls[1..]);
      } else {
        SpokenAtMostOne(r, ls[1..]);
      }
    }
  }

  /** The tally of a group's languages after one more record. */
  lemma {:induction false} TallyCons(r: Repository, rs: seq<Repository>, ls: seq<string>)
    ensures Tally(Languages([r] + rs), ls) == Spoken(r, ls) + Tally(Languages(rs), ls)
    decreases |ls|
  {
    if |ls| > 0 {
      assert ([r] + rs)[1..] == rs;
      assert LangCount([r] + rs, ls[0]) == (if Speaks(r, ls[0]) then 1 else 0) + LangCount(rs, ls[0]);
      TallyCons(r, rs, ls[1..]);
    }
  }

  /** Each record adds one to at most one language: the counts of any
      distinct languages add up to at most the number of records. */
  lemma {:induction false} LanguagesBound(rs: seq<Repository>, ls: seq<string>)
    requires Distinct(ls)
    ensures Tally(Languages(rs), ls) <= |rs|
    decreases |rs|
  {
    if |rs| == 0 {
      TallyEmpty(ls);
    } else {
      assert rs == [rs[0]] + rs[1..];
      TallyCons(rs[0], rs[1..], ls);
      SpokenAtMostOne(rs[0], ls);
      LanguagesBound(rs[1..], ls);
    }
  }

  lemma {:induction false} TallyEmpty(ls: seq<string>)
    ensures Tally(Languages([]), ls) == 0
    decreases |ls|
  {
    if |ls| > 0 {
      TallyEmpty(ls[1..]);
    }
  }

  /** The snapshot of one year's (non-empty) group. */
  function Snap(y: int, rs: seq<Repository>, round2: real -> real): Snapshot
    requires |rs| > 0
  {
    Snapshot(y, |rs|, TotalSize(rs), round2(TotalSize(rs) as real / |rs| as real), Languages(rs))
  }

  /** One snapshot per year, in the given order. */
  function Snapshots(g: Grouping, ys: seq<int>, round2: real -> real): (snaps: seq<Snapshot>)
    requires WellFormed(g) && forall i :: 0 <= i < |ys| ==> ys[i] in g.groups
    ensures |snaps| == |ys|
    ensures forall i :: 0 <= i < |ys| ==> snaps[i] == Snap(ys[i], g.groups[ys[i]], round2)
    decreases |ys|
  {
    if |ys| == 0 then []
    else [Snap(ys[0], g.groups[ys[0]], round2)] + Snapshots(g, ys[1..], round2)
  }

  /** The years ascending: `sorted(grouped.items())`, keys being distinct. */
  function SortedYears(g: Grouping): (ys: seq<int>)
    requires WellFormed(g)
    ensures forall i, j :: 0 <= i < j < |ys| ==> ys[i] < ys[j]
    ensures forall y :: y in ys <==> y in g.groups
  {
    SortDatesSpec(g.years);
    DistinctSortedStrict(g.years, SortDates(g.years));
    forall y ensures y in SortDates(g.years) <==> y in g.years {
      assert y in SortDates(g.years) <==> y in multiset(SortDates(g.years));
    }
    SortDates(g.years)
  }

  /** `analyzer.yearly_snapshots()`. */
  function YearlySnapshots(repos: seq<Repository>, fromIso: string -> Option<Instant>, yearOf: Instant -> int,
                           round2: real -> real): (r: Result<seq<Snapshot>>)
    // It raises exactly when grouping does.
    ensures r.Ok? <==> AllDated(FilterRelevant(repos), fromIso, yearOf)
    ensures r.Err? ==> r.error == ValueError
    ensures r.Ok? ==> Describes(FilterRelevant(repos), r.value, fromIso, yearOf, round2)
  {
    match GroupByYear(repos, fromIso, yearOf)
    case Err(e) => Err(e)
    case Ok(g) =>
      var ys := SortedYears(g);
      var snaps := Snapshots(g, ys, round2);
      SnapshotsDescribe(FilterRelevant(repos), g, ys, snaps, fromIso, yearOf, round2);
      Ok(snaps)
  }

  /** What the snapshots say about the non-forks `rs`: years strictly
      ascending; a year appears exactly when some record was created in it;
      each snapshot counts, sizes and tallies the languages of exactly that
      year's records. */
  ghost predicate Describes(rs: seq<Repository>, snaps: seq<Snapshot>, fromIso: string -> Option<Instant>,
                      yearOf: Instant -> int, round2: real -> real) {
    && (forall i, j :: 0 <= i < j < |snaps| ==> snaps[i].year < snaps[j].year)
    && (forall y :: (exists i :: 0 <= i < |snaps| && snaps[i].year == y) <==> |OfYear(rs, y, fromIso, yearOf)| > 0)
    && (forall i :: 0 <= i < |snaps| ==>
          && |OfYear(rs, snaps[i].year, fromIso, yearOf)| > 0
          && snaps[i] == Snap(snaps[i].year, OfYear(rs, snaps[i].year, fromIso, yearOf), round2))
  }

  lemma SnapshotsDescribe(rs: seq<Repository>, g: Grouping, ys: seq<int>, snaps: seq<Snapshot>,
                          fromIso: string -> Option<Instant>, yearOf: Instant -> int, round2: real -> real)
    requires WellFormed(g)
    requires forall y :: GetGroup(g, y) == OfYear(rs, y, fromIso, yearOf)
    requires forall i, j :: 0 <= i < j < |ys| ==> ys[i] < ys[j]
    requires forall y :: y in ys <==> y in g.groups
    requires forall i :: 0 <= i < |ys| ==> ys[i] in g.groups
    requires snaps == Snapshots(g, ys, round2)
    ensures Describes(rs, snaps, fromIso, yearOf, round2)
  {
    forall y ensures (exists i :: 0 <= i < |snaps| && snaps[i].year == y) <==> |OfYear(rs, y, fromIso, yearOf)| > 0 {
      if |OfYear(rs, y, fromIso, yearOf)| > 0 {
        assert y in g.groups;
        var i :| 0 <= i < |ys| && ys[i] == y;
        assert snaps[i].year == y;
      }
    }
  }

  // ---------------------------------------------------------------------------
  // Sorting distinct years
  // ---------------------------------------------------------------------------

  lemma {:induction false} DistinctCount(s: seq<int>, v: int)
    requires Distinct(s)
    ensures multiset(s)[v] <= 1
    decreases |s|
  {
    if |s| > 0 {
      assert s == [s[0]] + s[1..];
      DistinctCount(s[1..], v);
      if s[0] == v {
        assert v !in s[1..];
      }
    }
  }

  lemma TwoCopies(t: seq<int>, i: int, j: int)
    requires 0 <= i < j < |t| && t[i] == t[j]
    ensures multiset(t)[t[i]] >= 2
  {
    assert t == t[..j] + [t[j]] + t[j + 1..];
    assert t[i] in t[..j];
  }

  /** Sorting distinct years gives a strictly ascending run. */
  lemma DistinctSortedStrict(s: seq<int>, t: seq<int>)
    requires Distinct(s) && Sorted(t) && multiset(t) == multiset(s)
    ensures forall i, j :: 0 <= i < j < |t| ==> t[i] < t[j]
  {
    forall i, j | 0 <= i < j < |t|
      ensures t[i] < t[j]
    {
      if t[i] == t[j] {
        TwoCopies(t, i, j);
        DistinctCount(s, t[i]);
      }
    }
  }

  // ---------------------------------------------------------------------------
  // Every non-fork is counted once
  // ---------------------------------------------------------------------------

  /** The records of `rs` created in any of the years `ys`, counted year by year. */
  function Total(rs: seq<Repository>, ys: seq<int>, fromIso: string -> Option<Instant>, yearOf: Instant -> int): nat
    decreases |ys|
  {
    if |ys| == 0 then 0 else |OfYear(rs, ys[0], fromIso, yearOf)| + Total(rs, ys[1..], fromIso, yearOf)
  }

  lemma {:induction false} TotalCons(r: Repository, rs: seq<Repository>, ys: seq<int>,
                                    fromIso: string -> Option<Instant>, yearOf: Instant -> int)
    requires CreatedYear(r, fromIso, yearOf).Ok?
    ensures Total([r] + rs, ys, fromIso, yearOf)
         == Total(rs, ys, fromIso, yearOf) + multiset(ys)[CreatedYear(r, fromIso, yearOf).value]
    decreases |ys|
  {
    if |ys| > 0 {
      assert ([r] + rs)[1..] == rs;
      assert ys == [ys[0]] + ys[1..];
      TotalCons(r, rs, ys[1..], fromIso, yearOf);
    }
  }

  /** When the years are distinct and cover every record's year, each record
      is counted exactly once. */
  lemma {:induction false} TotalCovers(rs: seq<Repository>, ys: seq<int>, fromIso: string -> Option<Instant>, yearOf: Instant -> int)
    requires Distinct(ys)
    requires forall i :: 0 <= i < |rs| ==> CreatedYear(rs[i], fromIso, yearOf).Ok? && CreatedYear(rs[i], fromIso, yearOf).value in ys
    ensures Total(rs, ys, fromIso, yearOf) == |rs|
    decreases |rs|
  {
    if |rs| == 0 {
      TotalEmpty(ys, fromIso, yearOf);
    } else {
      var y := CreatedYear(rs[0], fromIso, yearOf).value;
      assert rs == [rs[0]] + rs[1..];
      TotalCons(rs[0], rs[1..], ys, fromIso, yearOf);
      TotalCovers(rs[1..], ys, fromIso, yearOf);
      DistinctCount(ys, y);
      assert y in multiset(ys);
    }
  }

  lemma {:induction false} TotalEmpty(ys: seq<int>, fromIso: string -> Option<Instant>, yearOf: Instant -> int)
    ensures Total([], ys, fromIso, yearOf) == 0
    decreases |ys|
  {
    if |ys| > 0 {
      TotalEmpty(ys[1..], fromIso, yearOf);
    }
  }

  function SumTotals(snaps: seq<Snapshot>): int
    decreases |snaps|
  {
    if |snaps| == 0 then 0 else snaps[0].totalRepos + SumTotals(snaps[1..])
  }

  lemma {:induction false} SumTotalsIsTotal(rs: seq<Repository>, snaps: seq<Snapshot>, fromIso: string -> Option<Instant>,
                                           yearOf: Instant -> int)
    requires forall i :: 0 <= i < |snaps| ==> snaps[i].totalRepos == |OfYear(rs, snaps[i].year, fromIso, yearOf)|
    ensures SumTotals(snaps) == Total(rs, YearsOf(snaps), fromIso, yearOf)
    decreases |snaps|
  {
    if |snaps| > 0 {
      assert forall i :: 0 <= i < |snaps[1..]| ==> snaps[1..][i] == snaps[i + 1];
      SumTotalsIsTotal(rs, snaps[1..], fromIso, yearOf);
      assert YearsOf(snaps)[1..] == YearsOf(snaps[1..]);
    }
  }

  function YearsOf(snaps: seq<Snapshot>): (ys: seq<int>)
    ensures |ys| == |snaps|
    ensures forall i :: 0 <= i < |snaps| ==> ys[i] == snaps[i].year
    decreases |snaps|
  {
    if |snaps| == 0 then [] else [snaps[0].year] + YearsOf(snaps[1..])
  }

  /** Every non-fork lands in exactly one snapshot: the totals add up to the
      number of non-forks. */
  lemma SnapshotsCountEveryRecord(repos: seq<Repository>, fromIso: string -> Option<Instant>, yearOf: Instant -> int,
                                  round2: real -> real)
    requires YearlySnapshots(repos, fromIso, yearOf, round2).Ok?
    ensures SumTotals(YearlySnapshots(repos, fromIso, yearOf, round2).value) == |FilterRelevant(repos)|
  {
    var rs := FilterRelevant(repos);
    var snaps := YearlySnapshots(repos, fromIso, yearOf, round2).value;
    DescribedYears(rs, snaps, fromIso, yearOf, round2);
    SumTotalsIsTotal(rs, snaps, fromIso, yearOf);
    TotalCovers(rs, YearsOf(snaps), fromIso, yearOf);
  }

  /** In every snapshot the language counts add up to at most the number of
      repositories of that year: a repository is counted under one language
      or none. */
  lemma SnapshotLanguagesBound(repos: seq<Repository>, fromIso: string -> Option<Instant>, yearOf: Instant -> int,
                               round2: real -> real, i: int, ls: seq<string>)
    requires Distinct(ls)
    ensures var r := YearlySnapshots(repos, fromIso, yearOf, round2);
      r.Ok? && 0 <= i < |r.value| ==> Tally(r.value[i].languages, ls) <= r.value[i].totalRepos
  {
    var r := YearlySnapshots(repos, fromIso, yearOf, round2);
    if r.Ok? && 0 <= i < |r.value| {
      var g := OfYear(FilterRelevant(repos), r.value[i].year, fromIso, yearOf);
      assert r.value[i] == Snap(r.value[i].year, g, round2);
      LanguagesBound(g, ls);
    }
  }

  /** The years of a description are distinct and cover every record. */
  lemma DescribedYears(rs: seq<Repository>, snaps: seq<Snapshot>, fromIso: string -> Option<Instant>,
                       yearOf: Instant -> int, round2: real -> real)
    requires AllDated(rs, fromIso, yearOf)
    requires Describes(rs, snaps, fromIso, yearOf, round2)
    ensures Distinct(YearsOf(snaps))
    ensures forall i :: 0 <= i < |rs| ==> CreatedYear(rs[i], fromIso, yearOf).value in YearsOf(snaps)
    ensures forall i :: 0 <= i < |snaps| ==> snaps[i].totalRepos == |OfYear(rs, snaps[i].year, fromIso, yearOf)|
  {
    var ys := YearsOf(snaps);
    forall i | 0 <= i < |rs|
      ensures CreatedYear(rs[i], fromIso, yearOf).value in ys
    {
      var y := CreatedYear(rs[i], fromIso, yearOf).value;
      OfYearHas(rs, i, fromIso, yearOf);
      var k :| 0 <= k < |snaps| && snaps[k].year == y;
      assert ys[k] == y;
    }
  }

  lemma {:induction false} OfYearHas(rs: seq<Repository>, i: int, fromIso: string -> Option<Instant>, yearOf: Instant -> int)
    requires 0 <= i < |rs| && CreatedYear(rs[i], fromIso, yearOf).Ok?
    ensures |OfYear(rs, CreatedYear(rs[i], fromIso, yearOf).value, fromIso, yearOf)| > 0
    decreases |rs|
  {
    if i > 0 {
      OfYearHas(rs[1..], i - 1, fromIso, yearOf);
    }
  }
}

=== FILE: base.dfy ===
/** Failure-carrying wrappers shared by every module of the model, and the
    exceptions the client can surface. */
module Base {

  /** Python's `None` versus a present value. */
  datatype Option<+T> = None | Some(value: T)

  /** The exceptions that escape the modelled code.
      - ApiError: `GitHubAPIError`, raised for a status other than 200/304
        (or a 304 with nothing cached); carries the status code.
      - ValueError: `int(...)` applied to a header that is not a decimal integer.
      - KeyError: a JSON object lacks a field the code indexes.
      - TypeError: a JSON value has the wrong kind for the way the code uses it
        (indexing a string with a key, iterating an integer, ...).
      - AttributeError: a method called on a JSON value of the wrong kind
        (`.replace` on a date that is not a string).
      - BodyNotJson: `response.json()` on a body that is not JSON.
      - OutOfScript: the environment supplied no further request/response
        exchange; the consumer stopped pulling at this point. */
  datatype Error =
    | ApiError(status: int)
    | ValueError
    | KeyError
    | TypeError
    | AttributeError
    | BodyNotJson
    | OutOfScript

  /** A value or the exception that was raised instead. */
  datatype Result<+T> = Ok(value: T) | Err(error: Error)

  /** Concatenation regroups freely. */
  lemma AppendAssoc<T>(a: seq<T>, b: seq<T>, c: seq<T>)
    ensures (a + b) + c == a + (b + c)
  {
  }

  /** Past the head, a consed sequence is its tail shifted by one. */
  lemma ConsAt<T>(x: T, xs: seq<T>, i: int)
    requires 0 < i <= |xs|
    ensures ([x] + xs)[i] == xs[i - 1]
  {
  }
}

=== FILE: cache_store.dfy ===
/** The on-disk response cache (`_read_cache` / `_write_cache` and the write in
    the 304 branch of core/github_client.py): one file per cache key, modelled
    as a map from key to what that file currently holds. */
module CacheStore {
  import opened Base
  import opened Json

  type Key = string

  /** What the client stores: when the response was last validated (seconds
      since the epoch, a float in the source), the response headers, and the
      decoded body. */
  datatype Entry = Entry(timestamp: real, headers: map<string, string>, data: Json)

  /** The content of one cache file.
      - Corrupt: reading fails (`OSError`) or the text is not JSON.
      - Blank: valid JSON that Python treats as false (`{}`, `[]`, `0`, ...),
        which `if cached:` treats like a miss.
      - Stored: an entry the client wrote.
      A file that makes the client raise (bytes that are not UTF-8, a truthy
      value that is not an entry) has no kind here. */
  datatype CacheFile = Corrupt | Blank | Stored(entry: Entry)

  /** The cache directory: absent keys are files that do not exist. */
  type Store = map<Key, CacheFile>

  /** How a best-effort write ends.
      - Written: the file now holds the entry.
      - OpenFailed: `open(..., "w")` raised `OSError`; the old file is untouched.
      - Interrupted: the file was opened (and so truncated) but `json.dump`
        raised `OSError` part-way; what is left is not valid JSON. */
  datatype WriteOutcome = Written | OpenFailed | Interrupted

  /** The usable entry under `key`, if any: a missing, corrupt or blank file is a miss. */
  function Read(store: Store, key: Key): (r: Option<Entry>)
    ensures key !in store ==> r == None
    ensures key in store && store[key] != Corrupt && store[key] != Blank ==> r.Some?
    ensures r.Some? ==> key in store && store[key] == Stored(r.value)
  {
    if key in store && store[key].Stored? then Some(store[key].entry) else None
  }

  /** Writing `entry` under `key`; every `OSError` is swallowed. */
  function Write(store: Store, key: Key, entry: Entry, outcome: WriteOutcome): (r: Store)
    ensures outcome == Written ==> Read(r, key) == Some(entry)
    ensures outcome == OpenFailed ==> r == store
    ensures outcome == Interrupted ==> key in r && Read(r, key) == None
    ensures Unchanged(store, r, key)
  {
    match outcome
    case Written => store[key := Stored(entry)]
    case OpenFailed => store
    case Interrupted => store[key := Corrupt]
  }

  /** Every file other than the one for `key` is as it was. */
  ghost predicate Unchanged(before: Store, after: Store, key: Key) {
    forall k :: k != key ==> (k in after <==> k in before) && (k in after ==> after[k] == before[k])
  }
}

=== FILE: client.dfy ===
/** A `GitHubClient` in use: its configured TTL, the cache directory, the
    exchanges the environment will supply to the coming calls of `_request`,
    and the log of calls made so far. Every call consumes one exchange. */
module Client {
  import opened Base
  import opened Json
  import opened Fingerprint
  import opened CacheStore
  import opened FetchPipeline

  /** One call of `_request(url, params)`. */
  datatype Call = Call(url: string, params: Option<Params>)

  /** `ttl` is `ttl_seconds` (43200 by default). */
  datatype Session = Session(ttl: int, store: Store, script: seq<Exchange>, log: seq<Call>)

  datatype Reply = Reply(result: Result<Json>, session: Session)

  /** `client._request(url, params)`. */
  function Request(s: Session, url: string, params: Option<Params>): (r: Reply)
    ensures r.session.ttl == s.ttl
    ensures r.session.log == s.log + [Call(url, params)]
    ensures |s.script| == 0 ==> r.result == Err(OutOfScript) && r.session.store == s.store
    ensures |s.script| > 0 ==>
      && r.session.script == s.script[1..]
      && r.result == Fetch(s.store, url, params, s.ttl, s.script[0]).result
      && r.session.store == Fetch(s.store, url, params, s.ttl, s.script[0]).store
    // A successful call always used up one exchange.
    ensures r.result.Ok? ==> |r.session.script| == |s.script| - 1
    ensures |r.session.script| <= |s.script|
  {
    var log := s.log + [Call(url, params)];
    if |s.script| == 0 then Reply(Err(OutOfScript), s.(log := log))
    else
      var o := Fetch(s.store, url, params, s.ttl, s.script[0]);
      Reply(o.result, Session(s.ttl, o.store, s.script[1..], log))
  }
}

=== FILE: commits.dfy ===
/** The commit listing both metrics request for a repository, and how one
    element of it yields a date:
    `datetime.fromisoformat(c["commit"]["author"]["date"].replace("Z", ""))`.

    ISO-8601 parsing is a parameter `fromIso`: None stands for the
    `ValueError` that `fromisoformat` raises on a string it rejects. */
module Commits {
  import opened Base
  import opened Json
  import opened Strings
  import opened Fingerprint
  import opened Client
  import opened Dates

  /** `f"https://api.github.com/repos/{repo_full_name}/commits"`. */
  function CommitsUrl(fullName: string): string {
    "https://api.github.com/repos/" + fullName + "/commits"
  }

  /** `params={"per_page": 100}`. */
  function CommitsParams(): Params {
    [("per_page", PInt(100))]
  }

  function CommitsCall(fullName: string): Call {
    Call(CommitsUrl(fullName), Some(CommitsParams()))
  }

  /** `v[key]` with a string key: an object lacking the key raises
      `KeyError`; any other kind of value raises `TypeError`. */
  function Index(v: Json, key: string): (r: Result<Json>)
    ensures r.Ok? <==> v.JObject? && key in v.fields
    ensures r.Ok? ==> r.value == v.fields[key]
    ensures r.Err? ==> r.error == (if v.JObject? then KeyError else TypeError)
  {
    match v
    case JObject(m) => if key in m then Ok(m[key]) else Err(KeyError)
    case _ => Err(TypeError)
  }

  /** The value at `c["commit"]["author"]["date"]`, if every step exists. */
  function DatePath(c: Json): Option<Json> {
    if c.JObject? && "commit" in c.fields
       && c.fields["commit"].JObject? && "author" in c.fields["commit"].fields
       && c.fields["commit"].fields["author"].JObject?
       && "date" in c.fields["commit"].fields["author"].fields
    then Some(c.fields["commit"].fields["author"].fields["date"])
    else None
  }

  /** The date of one commit element. */
  function CommitDate(c: Json, fromIso: string -> Option<Instant>): (r: Result<Instant>)
    // A date comes exactly from a string at the end of the path that parses
    // once every "Z" is removed.
    ensures r.Ok? <==>
      DatePath(c).Some? && DatePath(c).value.JStr? && fromIso(Without(DatePath(c).value.s, 'Z')).Some?
    ensures r.Ok? ==> Some(r.value) == fromIso(Without(DatePath(c).value.s, 'Z'))
    // A missing step raises KeyError or TypeError; a non-string date has no
    // `.replace` (AttributeError); a rejected string is a ValueError.
    ensures DatePath(c).None? ==> r.Err? && r.error in {KeyError, TypeError}
    ensures c.JObject? && "commit" !in c.fields ==> r == Err(KeyError)
    ensures !c.JObject? ==> r == Err(TypeError)
    ensures DatePath(c).Some? && !DatePath(c).value.JStr? ==> r == Err(AttributeError)
    ensures DatePath(c).Some? && DatePath(c).value.JStr? && fromIso(Without(DatePath(c).value.s, 'Z')).None? ==>
      r == Err(ValueError)
  {
    match Index(c, "commit")
    case Err(e) => Err(e)
    case Ok(commit) =>
      match Index(commit, "author")
      case Err(e) => Err(e)
      case Ok(author) =>
        match Index(author, "date")
        case Err(e) => Err(e)
        case Ok(date) =>
          if !date.JStr? then Err(AttributeError)
          else
            match fromIso(Without(date.s, 'Z'))
            case None => Err(ValueError)
            case Some(d) => Ok(d)
  }
}

=== FILE: consistency.dfy ===
/** `ConsistencyMetric` (core/metrics/consistency.py): the gaps in whole days
    between consecutive commits of each repository, and the statistics over
    them. Fetching commits tolerates failures; the statistics are guarded
    against too few gaps. `statistics.stdev` and `round(x, 2)` are parameters;
    the mean is exact. */
module Consistency {
  import opened Base
  import opened Json
  import opened Strings
  import opened Client
  import opened Repositories
  import opened Pagination
  import opened Dates
  import opened Commits

  // ---------------------------------------------------------------------------
  // _commit_dates
  // ---------------------------------------------------------------------------

  /** `"commit" in c` for one element of the commit list: a key test on an
      object, a substring test on a string, an element test on a list; any
      other value is not iterable (`TypeError`). */
  function MentionsCommit(c: Json): Result<bool> {
    match c
    case JObject(m) => Ok("commit" in m)
    case JStr(s) => Ok(Contains(s, "commit"))
    case JArray(items) => Ok(JStr("commit") in items)
    case _ => Err(TypeError)
  }

  /** `"commit" in c`, stated by what it looks for: a key of an object, an
      occurrence in a string, an element of a list; None, booleans and numbers
      raise TypeError. */
  lemma MentionsCommitSpec(c: Json)
    ensures c.JObject? ==> (MentionsCommit(c) == Ok(true) <==> "commit" in c.fields.Keys)
    ensures c.JStr? ==>
      (MentionsCommit(c) == Ok(true) <==> exists i :: OccursAt(c.s, "commit", i))
    ensures c.JArray? ==>
      (MentionsCommit(c) == Ok(true) <==> exists i :: 0 <= i < |c.items| && c.items[i] == JStr("commit"))
    ensures MentionsCommit(c).Err? <==> c.JNull? || c.JBool? || c.JInt?
    ensures MentionsCommit(c).Err? ==> MentionsCommit(c).error == TypeError
  {
    if c.JStr? {
      ContainsOccurs(c.s, "commit");
    }
  }

  /** An element the loop gets past: skipped, or one that yields a date. */
  predicate Acceptable(c: Json, fromIso: string -> Option<Instant>) {
    MentionsCommit(c) == Ok(false) || (MentionsCommit(c) == Ok(true) && CommitDate(c, fromIso).Ok?)
  }

  /** The elements that pass the `"commit" in c` test, in order. */
  function Mentioning(items: seq<Json>): (m: seq<Json>)
    ensures |m| <= |items|
    decreases |items|
  {
    if |items| == 0 then []
    else if MentionsCommit(items[0]) == Ok(true) then [items[0]] + Mentioning(items[1..])
    else Mentioning(items[1..])
  }

  /** The loop over a commit list: skip elements without "commit", take the
      date of the others. */
  function TolerantDates(items: seq<Json>, fromIso: string -> Option<Instant>): Result<seq<Instant>>
    decreases |items|
  {
    if |items| == 0 then Ok([])
    else
      var rest := TolerantDates(items[1..], fromIso);
      match MentionsCommit(items[0])
      case Err(e) => Err(e)
      case Ok(false) => rest
      case Ok(true) =>
        match CommitDate(items[0], fromIso)
        case Err(e) => Err(e)
        case Ok(d) => if rest.Ok? then Ok([d] + rest.value) else rest
  }

  /** The loop completes exactly when every element is skipped or yields a
      date, and then holds one date per mentioning element, in list order. */
  lemma {:induction false} TolerantDatesSpec(items: seq<Json>, fromIso: string -> Option<Instant>)
    ensures TolerantDates(items, fromIso).Ok? <==> forall i :: 0 <= i < |items| ==> Acceptable(items[i], fromIso)
    ensures TolerantDates(items, fromIso).Ok? ==> |TolerantDates(items, fromIso).value| == |Mentioning(items)|
    ensures TolerantDates(items, fromIso).Ok? ==> forall i :: 0 <= i < |Mentioning(items)| ==>
      CommitDate(Mentioning(items)[i], fromIso) == Ok(TolerantDates(items, fromIso).value[i])
    decreases |items|
  {
    if |items| > 0 {
      var t := items[1..];
      TolerantDatesSpec(t, fromIso);
      var r := TolerantDates(items, fromIso);
      var rest := TolerantDates(t, fromIso);
      assert (forall i :: 0 <= i < |items| ==> Acceptable(items[i], fromIso))
         <==> Acceptable(items[0], fromIso) && forall i :: 0 <= i < |t| ==> Acceptable(t[i], fromIso) by {
        assert forall i :: 1 <= i < |items| ==> items[i] == t[i - 1];
      }
      if MentionsCommit(items[0]) == Ok(true) && r.Ok? {
        var m := Mentioning(items);
        var d := CommitDate(items[0], fromIso).value;
        assert m == [items[0]] + Mentioning(t);
        assert r.value == [d] + rest.value;
        forall i | 0 <= i < |m|
          ensures CommitDate(m[i], fromIso) == Ok(r.value[i])
        {
          if i > 0 {
            ConsAt(items[0], Mentioning(t), i);
            ConsAt(d, rest.value, i);
          }
        }
      }
    }
  }

  /** What `_commit_dates` returns, and the session after its request. */
  datatype DatesReply = DatesReply(result: Result<seq<Instant>>, session: Session)

  /** `self._commit_dates(repo_full_name)`. A failed request is swallowed by
      `except Exception`; the end of the environment's exchanges is not an
      exception of the program and passes through. */
  function CommitDatesOf(s: Session, fullName: string, fromIso: string -> Option<Instant>): (r: DatesReply)
    ensures var reply := Request(s, CommitsUrl(fullName), Some(CommitsParams()));
      && r.session == reply.session
      // A request that raised gives no dates.
      && (reply.result.Err? && reply.result.error != OutOfScript ==> r.result == Ok([]))
      && (reply.result == Err(OutOfScript) ==> r.result == Err(OutOfScript))
      // An empty response or one that is not a list gives no dates.
      && (reply.result.Ok? && (!Truthy(reply.result.value) || !reply.result.value.JArray?) ==> r.result == Ok([]))
      // A non-empty list goes through the tolerant loop, whose errors escape.
      && (reply.result.Ok? && Truthy(reply.result.value) && reply.result.value.JArray? ==>
            r.result == TolerantDates(reply.result.value.items, fromIso))
  {
    var reply := Request(s, CommitsUrl(fullName), Some(CommitsParams()));
    match reply.result
    case Err(e) => DatesReply(if e == OutOfScript then Err(OutOfScript) else Ok([]), reply.session)
    case Ok(commits) =>
      if !Truthy(commits) || !commits.JArray? then DatesReply(Ok([]), reply.session)
      else DatesReply(TolerantDates(commits.items, fromIso), reply.session)
  }

  // ---------------------------------------------------------------------------
  // _commit_gaps
  // ---------------------------------------------------------------------------

  /** A `ConsistencyMetric(client, username, repositories)`; the client is the session. */
  datatype Metric = Metric(username: Option<string>, repositories: Option<seq<Repository>>)

  /** Where the repositories come from. */
  datatype Source = Given(repos: seq<Repository>) | Fetched(login: string) | NoSource

  /** `if self.repositories: ... elif self.username: ... else: return []`:
      an empty list or empty name is as good as none. */
  function SourceOf(m: Metric): (src: Source)
    ensures src.Given? <==> m.repositories.Some? && |m.repositories.value| > 0
    ensures src.Given? ==> src.repos == m.repositories.value
    ensures src.Fetched? <==> !src.Given? && m.username.Some? && |m.username.value| > 0
    ensures src.Fetched? ==> src.login == m.username.value
  {
    if m.repositories.Some? && |m.repositories.value| > 0 then Given(m.repositories.value)
    else if m.username.Some? && |m.username.value| > 0 then Fetched(m.username.value)
    else NoSource
  }

  /** The gaps of a run of repositories in order, given the dates fetched for each. */
  function ConcatGaps(dates: seq<seq<Instant>>): (g: seq<int>)
    ensures forall i :: 0 <= i < |g| ==> g[i] >= 0
    decreases |dates|
  {
    if |dates| == 0 then []
    else
      var rest := ConcatGaps(dates[1..]);
      assert forall i :: |DateGaps(dates[0])| <= i < |DateGaps(dates[0]) + rest| ==>
        (DateGaps(dates[0]) + rest)[i] == rest[i - |DateGaps(dates[0])|];
      DateGaps(dates[0]) + rest
  }

  /** `max(n - 1, 0)` gaps per repository with `n` dates. */
  function GapCount(dates: seq<seq<Instant>>): nat
    decreases |dates|
  {
    if |dates| == 0 then 0
    else (if |dates[0]| == 0 then 0 else |dates[0]| - 1) + GapCount(dates[1..])
  }

  lemma {:induction false} ConcatGapsCount(dates: seq<seq<Instant>>)
    ensures |ConcatGaps(dates)| == GapCount(dates)
    decreases |dates|
  {
    if |dates| > 0 {
      ConcatGapsCount(dates[1..]);
    }
  }

  /** The gaps, the session each repository's commits were fetched in, the
      dates fetched for each, and the session afterwards. */
  datatype GapsReply = GapsReply(result: Result<seq<int>>, visits: seq<Session>, dates: seq<seq<Instant>>,
                                 session: Session)

  /** The commit-requests of a run of repositories, in order. */
  function CommitsCalls(repos: seq<Repository>): (calls: seq<Call>)
    decreases |repos|
  {
    if |repos| == 0 then [] else [CommitsCall(repos[0].fullName)] + CommitsCalls(repos[1..])
  }

  /** The commits of `repos` were fetched one after another from `s`: the
      first in `s`, each next one in the session the previous fetch left;
      the first `|dates|` fetches gave `dates`. */
  predicate FetchedInTurn(repos: seq<Repository>, s: Session, fromIso: string -> Option<Instant>,
                          visits: seq<Session>, dates: seq<seq<Instant>>) {
    && |dates| <= |visits| <= |repos|
    && (|visits| > 0 ==> visits[0] == s)
    && (forall i :: 0 <= i < |visits| - 1 ==>
          visits[i + 1] == CommitDatesOf(visits[i], repos[i].fullName, fromIso).session)
    && (forall i :: 0 <= i < |dates| ==>
          CommitDatesOf(visits[i], repos[i].fullName, fromIso).result == Ok(dates[i]))
  }

  /** How a run over `repos` from `s` went: fetched in turn; a run that
      completes fetched every repository; a run that raised stopped at the
      fetch that raised; the session is the one the last fetch left. */
  predicate Ran(repos: seq<Repository>, s: Session, fromIso: string -> Option<Instant>, r: GapsReply) {
    && FetchedInTurn(repos, s, fromIso, r.visits, r.dates)
    && (r.result.Ok? ==> |r.visits| == |repos| && |r.dates| == |repos|)
    && (r.result.Err? ==>
          && |r.visits| == |r.dates| + 1
          && CommitDatesOf(r.visits[|r.dates|], repos[|r.dates|].fullName, fromIso).result == Err(r.result.error))
    && (|repos| == 0 ==> |r.visits| == 0 && r.session == s)
    && (|repos| > 0 ==>
          && |r.visits| > 0
          && r.session == CommitDatesOf(r.visits[|r.visits| - 1], repos[|r.visits| - 1].fullName, fromIso).session)
  }

  /** `for repo in repos: dates = sorted(self._commit_dates(repo.full_name)); ...`. */
  function RepoGaps(repos: seq<Repository>, s: Session, fromIso: string -> Option<Instant>): (r: GapsReply)
    // Each repository's commits are fetched in the session the previous
    // fetch left, and its dates are what that fetch returned; the run stops
    // only at a fetch that raised.
    ensures Ran(repos, s, fromIso, r)
    // On success: one commit request per repository, in order, and the
    // gaps of every repository's sorted dates, concatenated in order.
    ensures r.result.Ok? ==> r.result.value == ConcatGaps(r.dates)
    ensures r.result.Ok? ==> r.session.log == s.log + CommitsCalls(repos)
    ensures r.session.ttl == s.ttl
    decreases |repos|
  {
    if |repos| == 0 then GapsReply(Ok([]), [], [], s)
    else
      var d := CommitDatesOf(s, repos[0].fullName, fromIso);
      match d.result
      case Err(e) => GapsReply(Err(e), [s], [], d.session)
      case Ok(dates) =>
        var rest := RepoGaps(repos[1..], d.session, fromIso);
        var result := if rest.result.Err? then rest.result else Ok(DateGaps(dates) + rest.result.value);
        RanCons(repos, s, fromIso, dates, rest, result);
        if rest.result.Err? then GapsReply(result, [s] + rest.visits, [dates] + rest.dates, rest.session)
        else
          assert ([dates] + rest.dates)[1..] == rest.dates;
          AppendAssoc(s.log, [CommitsCall(repos[0].fullName)], CommitsCalls(repos[1..]));
          GapsReply(result, [s] + rest.visits, [dates] + rest.dates, rest.session)
  }

  /** A first fetch that gave `x`, in front of a run over the rest. */
  lemma RanCons(repos: seq<Repository>, s: Session, fromIso: string -> Option<Instant>, x: seq<Instant>,
                rest: GapsReply, result: Result<seq<int>>)
    requires |repos| > 0 && CommitDatesOf(s, repos[0].fullName, fromIso).result == Ok(x)
    requires Ran(repos[1..], CommitDatesOf(s, repos[0].fullName, fromIso).session, fromIso, rest)
    requires result.Ok? <==> rest.result.Ok?
    requires result.Err? ==> result.error == rest.result.error
    ensures Ran(repos, s, fromIso, GapsReply(result, [s] + rest.visits, [x] + rest.dates, rest.session))
  {
    var s1 := CommitDatesOf(s, repos[0].fullName, fromIso).session;
    ChainCons(repos, s, fromIso, rest.visits);
    DatesCons(repos, s, fromIso, x, rest.visits, rest.dates);
    LastCons(repos, s, rest.visits, rest.session, (v, r: Repository) => CommitDatesOf(v, r.fullName, fromIso).session);
    if result.Err? {
      FailedCons(repos, s, fromIso, x, rest.visits, rest.dates, result.error);
    }
  }

  lemma ChainCons(repos: seq<Repository>, s: Session, fromIso: string -> Option<Instant>, visits: seq<Session>)
    requires |repos| > 0 && |visits| <= |repos| - 1
    requires |visits| > 0 ==> visits[0] == CommitDatesOf(s, repos[0].fullName, fromIso).session
    requires forall i :: 0 <= i < |visits| - 1 ==>
      visits[i + 1] == CommitDatesOf(visits[i], repos[1..][i].fullName, fromIso).session
    ensures var v := [s] + visits;
      forall i :: 0 <= i < |v| - 1 ==> v[i + 1] == CommitDatesOf(v[i], repos[i].fullName, fromIso).session
  {
    var v := [s] + visits;
    forall i | 0 <= i < |v| - 1
      ensures v[i + 1] == CommitDatesOf(v[i], repos[i].fullName, fromIso).session
    {
      if i > 0 {
        assert v[i] == visits[i - 1] && v[i + 1] == visits[i] && repos[i] == repos[1..][i - 1];
      }
    }
  }

  lemma DatesCons(repos: seq<Repository>, s: Session, fromIso: string -> Option<Instant>, x: seq<Instant>,
                  visits: seq<Session>, dates: seq<seq<Instant>>)
    requires |repos| > 0 && |dates| <= |visits| <= |repos| - 1
    requires CommitDatesOf(s, repos[0].fullName, fromIso).result == Ok(x)
    requires forall i :: 0 <= i < |dates| ==> CommitDatesOf(visits[i], repos[1..][i].fullName, fromIso).result == Ok(dates[i])
    ensures var v := [s] + visits; var d := [x] + dates;
      forall i :: 0 <= i < |d| ==> CommitDatesOf(v[i], repos[i].fullName, fromIso).result == Ok(d[i])
  {
    var v := [s] + visits;
    var d := [x] + dates;
    forall i | 0 <= i < |d|
      ensures CommitDatesOf(v[i], repos[i].fullName, fromIso).result == Ok(d[i])
    {
      if i > 0 {
        assert v[i] == visits[i - 1] && d[i] == dates[i - 1] && repos[i] == repos[1..][i - 1];
      }
    }
  }

  /** Runs that chain a step through `ys`: the last state of a run over
      `ys` starting at `x` is that of the run over `ys[1..]` after it. */
  lemma LastCons<T, U>(ys: seq<U>, x: T, xs: seq<T>, last: T, step: (T, U) -> T)
    requires |ys| > 0
    requires |ys| == 1 ==> |xs| == 0 && last == step(x, ys[0])
    requires |ys| > 1 ==> 0 < |xs| < |ys| && last == step(xs[|xs| - 1], ys[1..][|xs| - 1])
    ensures var v := [x] + xs;
      last == step(v[|v| - 1], ys[|v| - 1])
  {
    if |ys| > 1 {
      var v := [x] + xs;
      assert v[|v| - 1] == xs[|xs| - 1] && ys[|v| - 1] == ys[1..][|xs| - 1];
    }
  }

  lemma FailedCons(repos: seq<Repository>, s: Session, fromIso: string -> Option<Instant>, x: seq<Instant>,
                   visits: seq<Session>, dates: seq<seq<Instant>>, e: Error)
    requires |repos| > 0 && |visits| == |dates| + 1 && |visits| <= |repos| - 1
    requires CommitDatesOf(visits[|dates|], repos[1..][|dates|].fullName, fromIso).result == Err(e)
    ensures var v := [s] + visits; var d := [x] + dates;
      CommitDatesOf(v[|d|], repos[|d|].fullName, fromIso).result == Err(e)
  {
    var v := [s] + visits;
    var d := [x] + dates;
    assert v[|d|] == visits[|dates|] && repos[|d|] == repos[1..][|dates|];
  }

  /** A commits request that raises is swallowed: that repository adds no
      gaps and the run goes on from the session the request left. */
  lemma FailedFetchAddsNoGaps(repos: seq<Repository>, s: Session, fromIso: string -> Option<Instant>)
    requires |repos| > 0
    requires var reply := Request(s, CommitsUrl(repos[0].fullName), Some(CommitsParams()));
      reply.result.Err? && reply.result.error != OutOfScript
    ensures var reply := Request(s, CommitsUrl(repos[0].fullName), Some(CommitsParams()));
      RepoGaps(repos, s, fromIso).result == RepoGaps(repos[1..], reply.session, fromIso).result
  {
    var reply := Request(s, CommitsUrl(repos[0].fullName), Some(CommitsParams()));
    var rest := RepoGaps(repos[1..], reply.session, fromIso);
    assert CommitDatesOf(s, repos[0].fullName, fromIso) == DatesReply(Ok([]), reply.session);
    if rest.result.Ok? {
      assert DateGaps([]) + rest.result.value == rest.result.value;
    }
  }

  /** `self._commit_gaps()`. */
  function CommitGaps(m: Metric, s: Session, fromIso: string -> Option<Instant>): (r: GapsReply)
    // Given repositories are used as they are, without listing anything.
    ensures SourceOf(m).Given? ==> r == RepoGaps(m.repositories.value, s, fromIso)
    // Otherwise a user name has its repositories listed first; a listing
    // that raises is raised.
    ensures SourceOf(m).Fetched? ==>
      var l := IterUserRepositories(m.username.value, DefaultPerPage, s);
      r == if l.stop.Raised? then GapsReply(Err(l.stop.error), [], [], l.session) else RepoGaps(l.repos, l.session, fromIso)
    // With neither, there are no gaps and no requests.
    ensures SourceOf(m).NoSource? ==> r == GapsReply(Ok([]), [], [], s)
    // Every gap is a non-negative number of days.
    ensures r.result.Ok? ==> forall i :: 0 <= i < |r.result.value| ==> r.result.value[i] >= 0
  {
    match SourceOf(m)
    case Given(repos) => RepoGaps(repos, s, fromIso)
    case Fetched(login) =>
      var l := IterUserRepositories(login, DefaultPerPage, s);
      if l.stop.Raised? then GapsReply(Err(l.stop.error), [], [], l.session)
      else RepoGaps(l.repos, l.session, fromIso)
    case NoSource => GapsReply(Ok([]), [], [], s)
  }

  // ---------------------------------------------------------------------------
  // The statistics
  // ---------------------------------------------------------------------------

  /** `statistics.mean` of a non-empty list of integers, exactly. */
  function Mean(g: seq<int>): real
    requires |g| > 0
  {
    Sum(g) as real / |g| as real
  }

  predicate AllZero(g: seq<int>) {
    forall i :: 0 <= i < |g| ==> g[i] == 0
  }

  predicate NonNegative(g: seq<int>) {
    forall i :: 0 <= i < |g| ==> g[i] >= 0
  }

  lemma {:induction false} SumNonNegative(g: seq<int>)
    requires NonNegative(g)
    ensures Sum(g) >= 0
    ensures Sum(g) == 0 <==> AllZero(g)
    decreases |g|
  {
    if |g| > 0 {
      SumNonNegative(g[1..]);
      assert forall i :: 1 <= i < |g| ==> g[i] == g[1..][i - 1];
    }
  }

  /** The mean lies between the smallest and the largest gap. */
  lemma {:induction false} MeanBounds(g: seq<int>, lo: int, hi: int)
    requires |g| > 0
    requires forall i :: 0 <= i < |g| ==> lo <= g[i] <= hi
    ensures lo as real <= Mean(g) <= hi as real
  {
    SumBounds(g, lo, hi);
    QuotientBounds(Sum(g), |g|, lo, hi);
  }

  /** Dividing a total that lies between `n * lo` and `n * hi` by `n`. */
  lemma QuotientBounds(total: int, n: int, lo: int, hi: int)
    requires n > 0 && lo * n <= total <= hi * n
    ensures lo as real <= total as real / n as real <= hi as real
  {
    var q := total as real / n as real;
    assert q * n as real == total as real;
    assert lo as real * n as real == (lo * n) as real;
    assert hi as real * n as real == (hi * n) as real;
  }

  lemma {:induction false} SumBounds(g: seq<int>, lo: int, hi: int)
    requires forall i :: 0 <= i < |g| ==> lo <= g[i] <= hi
    ensures lo * |g| <= Sum(g) <= hi * |g|
    decreases |g|
  {
    if |g| > 0 {
      var t := g[1..];
      assert forall i :: 0 <= i < |t| ==> t[i] == g[i + 1];
      SumBounds(t, lo, hi);
      assert Sum(g) == g[0] + Sum(t);
      assert lo * |g| == lo + lo * |t| && hi * |g| == hi + hi * |t|;
    }
  }

  /** `average_gap_days` once the gaps are known. */
  function AverageOf(g: seq<int>, round2: real -> real): (r: real)
    ensures |g| == 0 ==> r == 0.0
    // A non-zero average needs a gap of at least a day.
    ensures NonNegative(g) && AllZero(g) && round2(0.0) == 0.0 ==> r == 0.0
  {
    if |g| == 0 then 0.0
    else
      MeanSign(g);
      round2(Mean(g))
  }

  /** `gap_variance` once the gaps are known. */
  function VarianceOf(g: seq<int>, stdev: seq<int> -> real, round2: real -> real): (r: real)
    ensures |g| < 2 ==> r == 0.0
  {
    if |g| < 2 then 0.0 else round2(stdev(g))
  }

  /** `coefficient_of_variation` once the gaps are known. */
  function VariationOf(g: seq<int>, stdev: seq<int> -> real, round2: real -> real): (r: real)
    ensures |g| < 2 ==> r == 0.0
    // For day gaps the `avg == 0` guard fires exactly when all gaps are 0
    // days; otherwise the ratio is taken.
    ensures |g| >= 2 && NonNegative(g) && AllZero(g) ==> r == 0.0
    ensures |g| >= 2 && NonNegative(g) && !AllZero(g) ==>
      Mean(g) > 0.0 && r == round2(stdev(g) / Mean(g))
  {
    if |g| < 2 then 0.0
    else
      var avg := Mean(g);
      MeanSign(g);
      if avg == 0.0 then 0.0 else round2(stdev(g) / avg)
  }

  /** For gaps that are never negative the mean is never negative, and is
      0 exactly when every gap is. */
  lemma MeanSign(g: seq<int>)
    ensures |g| > 0 && NonNegative(g) ==> Mean(g) >= 0.0 && (Mean(g) == 0.0 <==> AllZero(g))
  {
    if |g| > 0 && NonNegative(g) {
      SumNonNegative(g);
    }
  }

  /** What a statistic returns and the session after the requests behind it. */
  datatype StatReply = StatReply(result: Result<real>, session: Session)

  function Lift(r: GapsReply, f: seq<int> -> real): (s: StatReply)
    ensures s.session == r.session
    ensures s.result.Ok? <==> r.result.Ok?
    ensures r.result.Ok? ==> s.result.value == f(r.result.value)
    ensures r.result.Err? ==> s.result.error == r.result.error
  {
    StatReply(if r.result.Ok? then Ok(f(r.result.value)) else Err(r.result.error), r.session)
  }

  /** `metric.average_gap_days()`: fetch the gaps afresh, then average them. */
  function AverageGapDays(m: Metric, s: Session, fromIso: string -> Option<Instant>, round2: real -> real): (r: StatReply)
    ensures var g := CommitGaps(m, s, fromIso);
      && r.session == g.session
      && (g.result.Ok? ==> r.result == Ok(AverageOf(g.result.value, round2)))
      && (g.result.Err? ==> r.result == Err(g.result.error))
      // No repositories and no user name: the average is 0 without a request.
      && (SourceOf(m).NoSource? ==> r == StatReply(Ok(0.0), s))
  {
    Lift(CommitGaps(m, s, fromIso), g => AverageOf(g, round2))
  }

  /** `metric.gap_variance()`. */
  function GapVariance(m: Metric, s: Session, fromIso: string -> Option<Instant>,
                       stdev: seq<int> -> real, round2: real -> real): (r: StatReply)
    ensures var g := CommitGaps(m, s, fromIso);
      && r.session == g.session
      && (g.result.Ok? ==> r.result == Ok(VarianceOf(g.result.value, stdev, round2)))
      && (g.result.Err? ==> r.result == Err(g.result.error))
      && (SourceOf(m).NoSource? ==> r == StatReply(Ok(0.0), s))
  {
    Lift(CommitGaps(m, s, fromIso), g => VarianceOf(g, stdev, round2))
  }

  /** `metric.coefficient_of_variation()`. */
  function CoefficientOfVariation(m: Metric, s: Session, fromIso: string -> Option<Instant>,
                                  stdev: seq<int> -> real, round2: real -> real): (r: StatReply)
    ensures var g := CommitGaps(m, s, fromIso);
      && r.session == g.session
      && (g.result.Ok? ==> r.result == Ok(VariationOf(g.result.value, stdev, round2)))
      && (g.result.Err? ==> r.result == Err(g.result.error))
      // When every gap fetched is 0 days, the coefficient is 0.
      && (g.result.Ok? && AllZero(g.result.value) ==> r.result == Ok(0.0))
      && (SourceOf(m).NoSource? ==> r == StatReply(Ok(0.0), s))
  {
    Lift(CommitGaps(m, s, fromIso), g => VariationOf(g, stdev, round2))
  }
}

=== FILE: dates.dfy ===
/** Commit dates and the whole-day gaps between them, as both metrics compute
    them: the dates of one repository are sorted (`sorted(...)`), then each
    consecutive pair gives `(dates[i] - dates[i - 1]).days`.

    A date is a naive `datetime` reduced to whole seconds on a single time
    line; `timedelta.days` is the floor of the difference in days. */
module Dates {

  /** A point in time, in seconds. */
  type Instant = int

  const SecondsPerDay := 86400

  predicate Sorted(s: seq<Instant>) {
    forall i, j :: 0 <= i < j < |s| ==> s[i] <= s[j]
  }

  // ---------------------------------------------------------------------------
  // sorted(dates)
  // ---------------------------------------------------------------------------

  function InsertDate(x: Instant, s: seq<Instant>): seq<Instant>
    decreases |s|
  {
    if |s| == 0 then [x]
    else if x <= s[0] then [x] + s
    else [s[0]] + InsertDate(x, s[1..])
  }

  /** `sorted(dates)`, by insertion. */
  function SortDates(s: seq<Instant>): seq<Instant>
    decreases |s|
  {
    if |s| == 0 then [] else InsertDate(s[0], SortDates(s[1..]))
  }

  /** Inserting adds exactly the one date. */
  lemma {:induction false} InsertDatePermutes(x: Instant, s: seq<Instant>)
    ensures multiset(InsertDate(x, s)) == multiset(s) + multiset{x}
    decreases |s|
  {
    if |s| > 0 && x > s[0] {
      InsertDatePermutes(x, s[1..]);
      assert s == [s[0]] + s[1..];
    }
  }

  /** Inserting into an ascending run keeps it ascending. */
  lemma {:induction false} InsertDateSorted(x: Instant, s: seq<Instant>)
    requires Sorted(s)
    ensures Sorted(InsertDate(x, s))
    decreases |s|
  {
    if |s| > 0 && x > s[0] {
      var rest := InsertDate(x, s[1..]);
      assert InsertDate(x, s) == [s[0]] + rest;
      InsertDateSorted(x, s[1..]);
      InsertDatePermutes(x, s[1..]);
      LowerBoundKept(s[0], x, s[1..], rest);
      ConsSorted(s[0], rest);
    } else if |s| > 0 {
      ConsSorted(x, s);
    }
  }

  lemma ConsSorted(lo: Instant, r: seq<Instant>)
    requires Sorted(r) && forall j :: 0 <= j < |r| ==> lo <= r[j]
    ensures Sorted([lo] + r)
  {
  }

  /** A bound below every date of `tail` and below `x` is below every date
      of a run holding exactly those. */
  lemma LowerBoundKept(lo: Instant, x: Instant, tail: seq<Instant>, r: seq<Instant>)
    requires lo <= x && forall j :: 0 <= j < |tail| ==> lo <= tail[j]
    requires multiset(r) == multiset(tail) + multiset{x}
    ensures forall j :: 0 <= j < |r| ==> lo <= r[j]
  {
    forall j | 0 <= j < |r|
      ensures lo <= r[j]
    {
      assert r[j] in multiset(r);
      if r[j] != x {
        assert r[j] in multiset(tail);
      }
    }
  }

  /** `sorted(dates)` holds the same dates ... */
  lemma {:induction false} SortDatesPermutes(s: seq<Instant>)
    ensures multiset(SortDates(s)) == multiset(s)
    decreases |s|
  {
    if |s| > 0 {
      SortDatesPermutes(s[1..]);
      InsertDatePermutes(s[0], SortDates(s[1..]));
      assert s == [s[0]] + s[1..];
    }
  }

  /** ... in ascending order. */
  lemma {:induction false} SortDatesSorted(s: seq<Instant>)
    ensures Sorted(SortDates(s))
    decreases |s|
  {
    if |s| > 0 {
      SortDatesSorted(s[1..]);
      InsertDateSorted(s[0], SortDates(s[1..]));
    }
  }

  lemma SortDatesSpec(s: seq<Instant>)
    ensures Sorted(SortDates(s))
    ensures multiset(SortDates(s)) == multiset(s)
    ensures |SortDates(s)| == |s|
  {
    SortDatesSorted(s);
    SortDatesPermutes(s);
    assert |SortDates(s)| == |multiset(SortDates(s))|;
  }

  /** Two ascending sequences holding the same dates are equal: the order the
      dates arrived in never matters once they are sorted. */
  lemma {:induction false} SortedUnique(a: seq<Instant>, b: seq<Instant>)
    requires Sorted(a) && Sorted(b)
    requires multiset(a) == multiset(b)
    ensures a == b
    decreases |a|
  {
    assert |a| == |multiset(a)| == |multiset(b)| == |b|;
    if |a| > 0 {
      assert a[0] == b[0] by {
        assert a[0] in multiset(b) && b[0] in multiset(a);
        var j :| 0 <= j < |b| && b[j] == a[0];
        var i :| 0 <= i < |a| && a[i] == b[0];
        assert a[0] <= a[i] && b[0] <= b[j];
      }
      TailMultiset(a);
      TailMultiset(b);
      SortedUnique(a[1..], b[1..]);
    }
  }

  lemma TailMultiset(a: seq<Instant>)
    requires |a| > 0
    ensures multiset(a[1..]) == multiset(a) - multiset{a[0]}
  {
    assert a == [a[0]] + a[1..];
  }

  // ---------------------------------------------------------------------------
  // Whole-day gaps
  // ---------------------------------------------------------------------------

  /** `(b - a).days`: the difference rounded down to whole days. */
  function DaysBetween(a: Instant, b: Instant): (days: int)
    ensures days * SecondsPerDay <= b - a < (days + 1) * SecondsPerDay
  {
    (b - a) / SecondsPerDay
  }

  /** The gaps between consecutive dates, in order. */
  function Gaps(d: seq<Instant>): (g: seq<int>)
    ensures |g| == if |d| == 0 then 0 else |d| - 1
    decreases |d|
  {
    if |d| < 2 then [] else [DaysBetween(d[0], d[1])] + Gaps(d[1..])
  }

  /** Gap `i` is the whole days from date `i` to date `i + 1`. */
  lemma {:induction false} GapsIndex(d: seq<Instant>, i: int)
    requires 0 <= i < |d| - 1
    ensures Gaps(d)[i] == DaysBetween(d[i], d[i + 1])
    decreases |d|
  {
    if i > 0 {
      GapsIndex(d[1..], i - 1);
    }
  }

  /** What one repository contributes: the gaps of its sorted dates. */
  function DateGaps(dates: seq<Instant>): (g: seq<int>)
    ensures |g| == if |dates| == 0 then 0 else |dates| - 1
    ensures forall i :: 0 <= i < |g| ==> g[i] >= 0
  {
    var sorted := SortDates(dates);
    SortDatesSpec(dates);
    forall i | 0 <= i < |Gaps(sorted)|
      ensures Gaps(sorted)[i] >= 0
    {
      GapsIndex(sorted, i);
    }
    Gaps(sorted)
  }

  /** The gaps depend only on which dates there are, not on their order. */
  lemma DateGapsIgnoreOrder(a: seq<Instant>, b: seq<Instant>)
    requires multiset(a) == multiset(b)
    ensures DateGaps(a) == DateGaps(b)
  {
    SortDatesSpec(a);
    SortDatesSpec(b);
    SortedUnique(SortDates(a), SortDates(b));
  }

  function Sum(s: seq<int>): int
    decreases |s|
  {
    if |s| == 0 then 0 else s[0] + Sum(s[1..])
  }

  /** Rounding each gap down loses at most a day per gap: the gaps of an
      ascending run add up to at most the whole-day span from its first to
      its last date. */
  lemma {:induction false} GapsWithinSpan(d: seq<Instant>)
    requires |d| >= 1 && Sorted(d)
    ensures Sum(Gaps(d)) <= DaysBetween(d[0], d[|d| - 1])
    ensures Sum(Gaps(d)) > DaysBetween(d[0], d[|d| - 1]) - |d|
    decreases |d|
  {
    if |d| >= 2 {
      GapsWithinSpan(d[1..]);
      assert Gaps(d) == [DaysBetween(d[0], d[1])] + Gaps(d[1..]);
      assert Sum(Gaps(d)) == DaysBetween(d[0], d[1]) + Sum(Gaps(d[1..]));
    }
  }
}

=== FILE: fetch.dfy ===
/** One call of `GitHubClient._request` (core/github_client.py): look the
    request up in the cache, answer fresh entries locally, otherwise send a
    GET (conditional when a stale entry carries validators, as in sections 3.2
    and 3.3 of RFC 7232) and fold the response back into the cache.

    The clock, the server's response and the fate of the cache write are
    inputs (an `Exchange`). Every clock reading during the call is `now`,
    except the one taken when the 200 branch writes its entry, which happens
    after the rate-limit sleep and so reads `now + stall`. */
module FetchPipeline {
  import opened Base
  import opened Json
  import opened Fingerprint
  import opened CacheStore
  import opened RateLimit

  const ETag := "ETag"
  const LastModified := "Last-Modified"
  const IfNoneMatch := "If-None-Match"
  const IfModifiedSince := "If-Modified-Since"

  /** A server response: status, headers, and the body decoded as JSON (None
      when the body is not JSON). */
  datatype Response = Response(status: int, headers: map<string, string>, body: Option<Json>)

  /** What the environment supplies to one call: the clock reading, the
      response the server would give, and how a cache write would end. */
  datatype Exchange = Exchange(now: real, response: Response, write: WriteOutcome)

  /** The GET the client sends: URL, query parameters and the extra
      (conditional) headers. */
  datatype Get = Get(url: string, params: Option<Params>, headers: map<string, string>)

  /** The result of one call, the cache afterwards, the request sent (None
      when the cache answered) and the seconds slept for rate limiting. */
  datatype Outcome = Outcome(result: Result<Json>, store: Store, sent: Option<Get>, stall: nat)

  /** The conditional headers built from a stale entry's stored headers. */
  function Validators(stored: map<string, string>): (h: map<string, string>)
    ensures IfNoneMatch in h <==> ETag in stored
    ensures IfNoneMatch in h ==> h[IfNoneMatch] == stored[ETag]
    ensures IfModifiedSince in h <==> LastModified in stored
    ensures IfModifiedSince in h ==> h[IfModifiedSince] == stored[LastModified]
    ensures h.Keys <= {IfNoneMatch, IfModifiedSince}
  {
    var h := if ETag in stored then map[IfNoneMatch := stored[ETag]] else map[];
    if LastModified in stored then h[IfModifiedSince := stored[LastModified]] else h
  }

  /** An entry is fresh while its age is strictly below the TTL. */
  predicate IsFresh(e: Entry, now: real, ttl: int) {
    now - e.timestamp < ttl as real
  }

  /** The cache answers the request without touching the network. */
  predicate FreshHit(store: Store, key: Key, now: real, ttl: int) {
    Read(store, key).Some? && IsFresh(Read(store, key).value, now, ttl)
  }

  function Fetch(store: Store, url: string, params: Option<Params>, ttl: int, x: Exchange): (o: Outcome)
    // Fresh hit: the stored data, no request, no sleep, the cache as it was.
    ensures FreshHit(store, CacheKey(url, params), x.now, ttl) ==>
      o == Outcome(Ok(Read(store, CacheKey(url, params)).value.data), store, None, 0)
    // Otherwise exactly one GET goes out, carrying validators exactly when a
    // (stale) entry is stored.
    ensures !FreshHit(store, CacheKey(url, params), x.now, ttl) ==> o.sent.Some?
    ensures o.sent.Some? ==> o.sent.value.url == url && o.sent.value.params == params
    ensures o.sent.Some? && Read(store, CacheKey(url, params)).None? ==> o.sent.value.headers == map[]
    ensures o.sent.Some? && Read(store, CacheKey(url, params)).Some? ==>
      o.sent.value.headers == Validators(Read(store, CacheKey(url, params)).value.headers)
    // 304 on a stale entry: the old data, no sleep; a successful write
    // re-stamps the entry with `now` and overrides its headers with the 304's.
    ensures var e := Read(store, CacheKey(url, params));
      e.Some? && !FreshHit(store, CacheKey(url, params), x.now, ttl) && x.response.status == 304 ==>
      && o.result == Ok(e.value.data)
      && o.stall == 0
      && (x.write == Written ==>
            Read(o.store, CacheKey(url, params)) == Some(Entry(x.now, e.value.headers + x.response.headers, e.value.data)))
    // Any other non-200 status (including 304 with nothing cached) raises
    // GitHubAPIError carrying the status.
    ensures (o.sent.Some? && x.response.status != 200 &&
             (x.response.status != 304 || Read(store, CacheKey(url, params)).None?)) ==>
      o.result == Err(ApiError(x.response.status)) && o.stall == 0
    // 200: pace, then return the body and store {now + stall, headers, body}.
    ensures o.sent.Some? && x.response.status == 200 ==>
      && (StallSeconds(x.response.headers, x.now).Err? ==>
            o.result == Err(ValueError) && o.stall == 0)
      && (StallSeconds(x.response.headers, x.now).Ok? ==>
            && o.stall == StallSeconds(x.response.headers, x.now).value
            && (x.response.body.None? ==> o.result == Err(BodyNotJson))
            && (x.response.body.Some? ==> o.result == Ok(x.response.body.value))
            && (x.response.body.Some? && x.write == Written ==>
                  Read(o.store, CacheKey(url, params)) ==
                    Some(Entry(x.now + o.stall as real, x.response.headers, x.response.body.value))))
    // A failed write changes nothing; an interrupted one leaves a miss behind.
    ensures x.write == OpenFailed ==> o.store == store
    ensures x.write == Interrupted && o.store != store ==> Read(o.store, CacheKey(url, params)) == None
    // Only the file for this request's key can change.
    ensures Unchanged(store, o.store, CacheKey(url, params))
    // A failed call never changes the cache.
    ensures o.result.Err? ==> o.store == store
    // The client only sleeps after a 200.
    ensures o.stall > 0 ==> o.sent.Some? && x.response.status == 200
  {
    var key := CacheKey(url, params);
    var cached := Read(store, key);
    if cached.Some? && IsFresh(cached.value, x.now, ttl) then
      Outcome(Ok(cached.value.data), store, None, 0)
    else
      var sent := Get(url, params, if cached.Some? then Validators(cached.value.headers) else map[]);
      var resp := x.response;
      if resp.status == 304 && cached.Some? then
        var e := cached.value;
        var refreshed := Entry(x.now, e.headers + resp.headers, e.data);
        Outcome(Ok(e.data), Write(store, key, refreshed, x.write), Some(sent), 0)
      else if resp.status != 200 then
        Outcome(Err(ApiError(resp.status)), store, Some(sent), 0)
      else
        match StallSeconds(resp.headers, x.now)
        case Err(e) => Outcome(Err(e), store, Some(sent), 0)
        case Ok(stall) =>
          match resp.body
          case None => Outcome(Err(BodyNotJson), store, Some(sent), stall)
          case Some(body) =>
            var written := Entry(x.now + stall as real, resp.headers, body);
            Outcome(Ok(body), Write(store, key, written, x.write), Some(sent), stall)
  }

  // ---------------------------------------------------------------------------
  // Freshness across calls
  // ---------------------------------------------------------------------------

  /** After a call that stored a response (200 or 304) with a successful
      write, the same request made again while the new entry is younger than
      the TTL is answered from the cache with the same data: no request, no
      sleep, no change to the cache. */
  lemma RepeatWithinTtlIsHit(store: Store, url: string, params: Option<Params>, ttl: int, x: Exchange, y: Exchange)
    requires x.write == Written
    requires Fetch(store, url, params, ttl, x).result.Ok?
    requires var o := Fetch(store, url, params, ttl, x);
      o.sent.Some? && y.now - (x.now + o.stall as real) < ttl as real
    ensures var o := Fetch(store, url, params, ttl, x);
      var o2 := Fetch(o.store, url, params, ttl, y);
      && o2.result == o.result
      && o2.sent == None
      && o2.store == o.store
      && o2.stall == 0
  {
    var key := CacheKey(url, params);
    var o := Fetch(store, url, params, ttl, x);
    assert FreshHit(o.store, key, y.now, ttl);
  }

  /** Revalidation never moves an entry's timestamp backwards: with a
      non-negative TTL a stale entry is older than `now`, and the 304 branch
      re-stamps it with `now`. */
  lemma RevalidationAdvancesTimestamp(store: Store, url: string, params: Option<Params>, ttl: int, x: Exchange)
    requires ttl >= 0
    requires Read(store, CacheKey(url, params)).Some?
    requires x.response.status == 304 && x.write == Written
    ensures var o := Fetch(store, url, params, ttl, x);
      && Read(o.store, CacheKey(url, params)).Some?
      && Read(o.store, CacheKey(url, params)).value.timestamp >= Read(store, CacheKey(url, params)).value.timestamp
      && Read(o.store, CacheKey(url, params)).value.data == Read(store, CacheKey(url, params)).value.data
  {
  }

  /** An entry survives every failed call untouched, so a good entry is never
      lost or replaced by an error. */
  lemma ErrorKeepsEntries(store: Store, url: string, params: Option<Params>, ttl: int, x: Exchange, k: Key)
    requires Fetch(store, url, params, ttl, x).result.Err?
    ensures Read(Fetch(store, url, params, ttl, x).store, k) == Read(store, k)
  {
  }
}

=== FILE: fingerprint.dfy ===
/** The cache key of a request (`_get_cache_path` in core/github_client.py):
    the URL alone when there are no query parameters, otherwise the URL
    followed by `json.dumps(params, sort_keys=True)`. The md5 digest and the
    file path built from the key are not modelled: the cache is keyed by the
    canonical string itself. */
module Fingerprint {
  import opened Base
  import opened Strings

  /** A query-parameter value; the client only ever passes integers and strings. */
  datatype ParamValue = PInt(i: int) | PStr(s: string)

  /** One `name: value` pair of a parameter dict. */
  type Param = (string, ParamValue)

  /** A Python dict is ordered by insertion and holds each name once. */
  predicate DistinctNames(p: seq<Param>) {
    forall i, j :: 0 <= i < j < |p| ==> p[i].0 != p[j].0
  }

  /** The query parameters of a request, in insertion order. */
  type Params = p: seq<Param> | DistinctNames(p) witness []

  predicate SortedByName(p: seq<Param>) {
    forall i, j :: 0 <= i < j < |p| ==> Less(p[i].0, p[j].0)
  }

  // ---------------------------------------------------------------------------
  // Sorting the parameters by name (what `sort_keys=True` does)
  // ---------------------------------------------------------------------------

  /** Inserting one pair into a name-sorted sequence, before the first pair
      whose name is larger. */
  function Insert(x: Param, s: seq<Param>): seq<Param>
    decreases |s|
  {
    if |s| == 0 then [x]
    else if Less(x.0, s[0].0) then [x] + s
    else [s[0]] + Insert(x, s[1..])
  }

  /** The parameters ordered by name (insertion sort). */
  function SortByName(p: seq<Param>): seq<Param>
    decreases |p|
  {
    if |p| == 0 then [] else Insert(p[0], SortByName(p[1..]))
  }

  lemma {:induction false} InsertPermutes(x: Param, s: seq<Param>)
    ensures multiset(Insert(x, s)) == multiset(s) + multiset{x}
    decreases |s|
  {
    if |s| > 0 && !Less(x.0, s[0].0) {
      InsertPermutes(x, s[1..]);
      assert s == [s[0]] + s[1..];
    }
  }

  lemma {:induction false} SortByNamePermutes(p: seq<Param>)
    ensures multiset(SortByName(p)) == multiset(p)
    decreases |p|
  {
    if |p| > 0 {
      SortByNamePermutes(p[1..]);
      InsertPermutes(p[0], SortByName(p[1..]));
      assert p == [p[0]] + p[1..];
    }
  }

  lemma {:induction false} InsertSorted(x: Param, s: seq<Param>)
    requires SortedByName(s)
    requires forall i :: 0 <= i < |s| ==> s[i].0 != x.0
    ensures SortedByName(Insert(x, s))
    decreases |s|
  {
    if |s| == 0 {
    } else if Less(x.0, s[0].0) {
      forall j | 0 < j < |s|
        ensures Less(x.0, s[j].0)
      {
        LessTransitive(x.0, s[0].0, s[j].0);
      }
    } else {
      LessTotal(x.0, s[0].0);
      InsertSorted(x, s[1..]);
      InsertPermutes(x, s[1..]);
      var rest := Insert(x, s[1..]);
      assert s == [s[0]] + s[1..];
      forall j | 0 <= j < |rest|
        ensures Less(s[0].0, rest[j].0)
      {
        assert rest[j] in multiset(rest);
        if rest[j] != x {
          assert rest[j] in multiset(s[1..]);
          var k :| 0 <= k < |s[1..]| && s[1..][k] == rest[j];
          assert s[k + 1] == rest[j];
        }
      }
    }
  }

  lemma {:induction false} SortByNameSorted(p: seq<Param>)
    requires DistinctNames(p)
    ensures SortedByName(SortByName(p))
    decreases |p|
  {
    if |p| > 0 {
      SortByNameSorted(p[1..]);
      SortByNamePermutes(p[1..]);
      var rest := SortByName(p[1..]);
      forall i | 0 <= i < |rest|
        ensures rest[i].0 != p[0].0
      {
        assert rest[i] in multiset(p[1..]);
        var k :| 0 <= k < |p[1..]| && p[1..][k] == rest[i];
        assert p[k + 1] == rest[i];
      }
      InsertSorted(p[0], rest);
    }
  }

  /** Two name-sorted sequences holding the same pairs are the same sequence. */
  lemma {:induction false} SortedUnique(a: seq<Param>, b: seq<Param>)
    requires SortedByName(a) && SortedByName(b)
    requires multiset(a) == multiset(b)
    ensures a == b
    decreases |a|
  {
    assert |a| == |multiset(a)| == |multiset(b)| == |b|;
    if |a| > 0 {
      if a[0] != b[0] {
        assert a[0] in multiset(b);
        var j :| 0 <= j < |b| && b[j] == a[0];
        assert b[0] in multiset(a);
        var i :| 0 <= i < |a| && a[i] == b[0];
        assert Less(b[0].0, a[0].0) && Less(a[0].0, b[0].0);
        LessAsymmetric(b[0].0, a[0].0);
        assert false;
      }
      assert a == [a[0]] + a[1..] && b == [b[0]] + b[1..];
      assert multiset(a) == multiset{a[0]} + multiset(a[1..]);
      assert multiset(b) == multiset{b[0]} + multiset(b[1..]);
      assert a[0] == b[0];
      assert multiset(a[1..]) == multiset(a) - multiset{a[0]};
      assert multiset(b[1..]) == multiset(b) - multiset{b[0]};
      SortedUnique(a[1..], b[1..]);
    }
  }

  // ---------------------------------------------------------------------------
  // json.dumps of a flat dict, with the default separators ", " and ": "
  // ---------------------------------------------------------------------------

  function DumpString(s: string): string {
    "\"" + s + "\""
  }

  function DumpValue(v: ParamValue): string {
    match v
    case PInt(i) => IntToString(i)
    case PStr(s) => DumpString(s)
  }

  function DumpItems(p: seq<Param>): string
    decreases |p|
  {
    if |p| == 0 then ""
    else
      var item := DumpString(p[0].0) + ": " + DumpValue(p[0].1);
      if |p| == 1 then item else item + ", " + DumpItems(p[1..])
  }

  /** `json.dumps(params, sort_keys=True)`. */
  function DumpSorted(p: Params): string {
    "{" + DumpItems(SortByName(p)) + "}"
  }

  // ---------------------------------------------------------------------------
  // The key
  // ---------------------------------------------------------------------------

  /** The cache key of a GET of `url` with optional query parameters. */
  function CacheKey(url: string, params: Option<Params>): (key: string)
    ensures params == None || params == Some([]) ==> key == url
    ensures params.Some? && |params.value| > 0 ==> |key| > |url|
    ensures key[..|url|] == url
  {
    if params.Some? && |params.value| > 0 then url + DumpSorted(params.value) else url
  }

  /** The order in which parameters were inserted never changes the key: any
      two dicts holding the same pairs produce the same key. */
  lemma KeyIgnoresInsertionOrder(url: string, p: Params, q: Params)
    requires multiset(p) == multiset(q)
    ensures CacheKey(url, Some(p)) == CacheKey(url, Some(q))
  {
    SortByNameSorted(p);
    SortByNameSorted(q);
    SortByNamePermutes(p);
    SortByNamePermutes(q);
    SortedUnique(SortByName(p), SortByName(q));
  }
}

=== FILE: json.dfy ===
/** Decoded JSON values as Python's `json` module produces them, and Python's
    truthiness of such values (`if data:`, `if cached:`). Floating-point
    numbers are not part of the model. */
module Json {

  datatype Json =
    | JNull
    | JBool(b: bool)
    | JInt(i: int)
    | JStr(s: string)
    | JArray(items: seq<Json>)
    | JObject(fields: map<string, Json>)

  /** `bool(v)` in Python: None, False, 0, "", [] and {} are false. */
  predicate Truthy(v: Json) {
    match v
    case JNull => false
    case JBool(b) => b
    case JInt(i) => i != 0
    case JStr(s) => |s| > 0
    case JArray(items) => |items| > 0
    case JObject(fields) => |fields| > 0
  }

  /** The falsy values are exactly the six empty or zero ones. */
  lemma FalsyValues(v: Json)
    ensures !Truthy(v) <==> v in {JNull, JBool(false), JInt(0), JStr(""), JArray([]), JObject(map[])}
  {
    if v.JObject? && |v.fields| == 0 {
      assert v.fields.Keys == {};
      assert v.fields == map[];
    }
  }
}

=== FILE: pagination.dfy ===
/** The repository listings of core/github_client.py
    (`iter_user_repositories`, `iter_org_repositories`): request pages 1, 2,
    3, ... with a fixed page size and `sort="updated"`, yield each page's
    records in order, and stop at the first page whose data is false
    (empty). The generator is modelled by what it has yielded when it stops,
    either normally or by raising. */
module Pagination {
  import opened Base
  import opened Json
  import opened Strings
  import opened Fingerprint
  import opened CacheStore
  import opened RateLimit
  import opened FetchPipeline
  import opened Client
  import opened Repositories

  const ApiUrl := "https://api.github.com"
  const DefaultPerPage := 100

  /** Whose repositories are listed. */
  datatype Owner = User(login: string) | Org(login: string)

  function ListUrl(o: Owner): string {
    match o
    case User(login) => ApiUrl + "/users/" + login + "/repos"
    case Org(login) => ApiUrl + "/orgs/" + login + "/repos"
  }

  /** The parameter dict of one page request, in the source's insertion order. */
  function PageParams(perPage: int, page: int): Params {
    [("per_page", PInt(perPage)), ("page", PInt(page)), ("sort", PStr("updated"))]
  }

  function PageCall(o: Owner, perPage: int, page: int): Call {
    Call(ListUrl(o), Some(PageParams(perPage, page)))
  }

  /** `f(first), f(first + 1), ..., f(first + n - 1)`. */
  function Iterate<T>(f: int -> T, first: int, n: nat): (xs: seq<T>)
    ensures |xs| == n
    decreases n
  {
    if n == 0 then [] else [f(first)] + Iterate(f, first + 1, n - 1)
  }

  lemma {:induction false} IterateIndex<T>(f: int -> T, first: int, n: nat, i: int)
    requires 0 <= i < n
    ensures Iterate(f, first, n)[i] == f(first + i)
    decreases n
  {
    if i > 0 {
      IterateIndex(f, first + 1, n - 1, i - 1);
    }
  }

  /** The calls for `n` consecutive pages starting at page `first`. */
  function PageCalls(o: Owner, perPage: int, first: int, n: nat): (calls: seq<Call>)
    ensures |calls| == n
  {
    Iterate(p => PageCall(o, perPage, p), first, n)
  }

  /** The `i`-th of those calls asks for page `first + i`. */
  lemma PageCallsIndex(o: Owner, perPage: int, first: int, n: nat, i: int)
    requires 0 <= i < n
    ensures PageCalls(o, perPage, first, n)[i] == PageCall(o, perPage, first + i)
  {
    IterateIndex(p => PageCall(o, perPage, p), first, n, i);
  }

  /** How a listing ended: at an empty page, or by raising. */
  datatype Stop = Finished | Raised(error: Error)

  /** The records yielded, the data of every page fetched successfully, the
      session afterwards, and how the listing ended. */
  datatype Listing = Listing(repos: seq<Repository>, pages: seq<Json>, session: Session, stop: Stop)

  /** What iterating over one page's data yields before it stops. */
  function PageRecords(v: Json): seq<Repository> {
    if v.JArray? then DecodeAll(v.items).records else []
  }

  /** The in-order concatenation of the records of a run of pages. */
  function Records(pages: seq<Json>): seq<Repository>
    decreases |pages|
  {
    if |pages| == 0 then [] else PageRecords(pages[0]) + Records(pages[1..])
  }

  lemma RecordsCons(v: Json, pages: seq<Json>)
    ensures Records([v] + pages) == PageRecords(v) + Records(pages)
  {
    assert ([v] + pages)[1..] == pages;
  }

  /** A page the iteration moves past: non-empty, a list, every element decoded. */
  predicate Complete(v: Json) {
    Truthy(v) && v.JArray? && DecodeAll(v.items).failure.None?
  }

  /** Every page but the last is complete. */
  predicate CompleteUntilLast(pages: seq<Json>)
    decreases |pages|
  {
    |pages| <= 1 || (Complete(pages[0]) && CompleteUntilLast(pages[1..]))
  }

  /** What a listing that started at `page`, from a session with call log
      `log` and TTL `ttl`, has to satisfy. */
  predicate Accounts(o: Owner, perPage: int, page: int, log: seq<Call>, ttl: int, r: Listing) {
    // The output is the in-order concatenation of the fetched pages' records.
    && r.repos == Records(r.pages)
    // Every page but the last was complete; the listing finishes exactly when
    // the last page fetched was empty.
    && CompleteUntilLast(r.pages)
    && (r.stop == Finished <==> |r.pages| > 0 && !Truthy(r.pages[|r.pages| - 1]))
    // Pages `page`, `page + 1`, ... are requested in order, one call per
    // fetched page plus possibly one call that raised.
    && |r.session.log| > |log|
    && r.session.log == log + PageCalls(o, perPage, page, |r.session.log| - |log|)
    && (|r.session.log| - |log| == |r.pages|
        || (|r.session.log| - |log| == |r.pages| + 1 && r.stop.Raised?))
    && r.session.ttl == ttl
  }

  /** A listing that stops at its first page. */
  lemma LastPage(o: Owner, perPage: int, page: int, s: Session, mid: Session, pages: seq<Json>, records: seq<Repository>, stop: Stop)
    requires mid.log == s.log + [PageCall(o, perPage, page)] && mid.ttl == s.ttl
    requires |pages| <= 1
    requires |pages| == 0 ==> records == []
    requires |pages| == 1 ==> records == PageRecords(pages[0])
    requires stop == Finished <==> |pages| == 1 && !Truthy(pages[0])
    requires |pages| == 0 ==> stop.Raised?
    ensures Accounts(o, perPage, page, s.log, s.ttl, Listing(records, pages, mid, stop))
  {
    assert PageCalls(o, perPage, page, 1) == [PageCall(o, perPage, page)];
    if |pages| == 1 {
      RecordsCons(pages[0], []);
      assert [pages[0]] + [] == pages;
    }
  }

  /** An empty page yields nothing. */
  lemma FalsyPageIsEmpty(v: Json)
    requires !Truthy(v)
    ensures PageRecords(v) == []
  {
    if v.JArray? {
      assert |v.items| == 0;
    }
  }

  /** A complete page followed by the listing of the pages after it. */
  lemma NextPage(o: Owner, perPage: int, page: int, s: Session, mid: Session, data: Json, rest: Listing)
    requires mid.log == s.log + [PageCall(o, perPage, page)] && mid.ttl == s.ttl
    requires Complete(data)
    requires Accounts(o, perPage, page + 1, mid.log, mid.ttl, rest)
    ensures Accounts(o, perPage, page, s.log, s.ttl,
      Listing(PageRecords(data) + rest.repos, [data] + rest.pages, rest.session, rest.stop))
  {
    var n := |rest.session.log| - |s.log|;
    AppendAssoc(s.log, [PageCall(o, perPage, page)], PageCalls(o, perPage, page + 1, n - 1));
    RecordsCons(data, rest.pages);
    assert ([data] + rest.pages)[1..] == rest.pages;
  }

  function Pages(o: Owner, perPage: int, page: int, s: Session): (r: Listing)
    ensures Accounts(o, perPage, page, s.log, s.ttl, r)
    decreases |s.script|
  {
    var reply := Request(s, ListUrl(o), Some(PageParams(perPage, page)));
    match reply.result
    case Err(e) =>
      LastPage(o, perPage, page, s, reply.session, [], [], Raised(e));
      Listing([], [], reply.session, Raised(e))
    case Ok(data) =>
      if !Truthy(data) then
        FalsyPageIsEmpty(data);
        LastPage(o, perPage, page, s, reply.session, [data], [], Finished);
        Listing([], [data], reply.session, Finished)
      else if !data.JArray? then
        LastPage(o, perPage, page, s, reply.session, [data], [], Raised(TypeError));
        Listing([], [data], reply.session, Raised(TypeError))
      else
        var d := DecodeAll(data.items);
        if d.failure.Some? then
          LastPage(o, perPage, page, s, reply.session, [data], d.records, Raised(d.failure.value));
          Listing(d.records, [data], reply.session, Raised(d.failure.value))
        else
          var rest := Pages(o, perPage, page + 1, reply.session);
          NextPage(o, perPage, page, s, reply.session, data, rest);
          Listing(d.records + rest.repos, [data] + rest.pages, rest.session, rest.stop)
  }

  /** `client.iter_user_repositories(username, per_page)`: pages from 1. */
  function IterUserRepositories(username: string, perPage: int, s: Session): (r: Listing)
    ensures Accounts(User(username), perPage, 1, s.log, s.ttl, r)
  {
    Pages(User(username), perPage, 1, s)
  }

  /** `client.iter_org_repositories(orga, per_page)`: pages from 1. */
  function IterOrgRepositories(orga: string, perPage: int, s: Session): (r: Listing)
    ensures Accounts(Org(orga), perPage, 1, s.log, s.ttl, r)
  {
    Pages(Org(orga), perPage, 1, s)
  }

  /** The recursive form of "every page but the last is complete" is the
      pointwise one. */
  lemma {:induction false} CompleteUntilLastIndex(pages: seq<Json>, i: int)
    requires CompleteUntilLast(pages)
    requires 0 <= i < |pages| - 1
    ensures Complete(pages[i])
    decreases |pages|
  {
    if i > 0 {
      CompleteUntilLastIndex(pages[1..], i - 1);
    }
  }

  // ---------------------------------------------------------------------------
  // Page keys
  // ---------------------------------------------------------------------------

  function PageKey(o: Owner, perPage: int, page: int): Key {
    CacheKey(ListUrl(o), Some(PageParams(perPage, page)))
  }

  /** The parameters of a page request in name order. */
  function SortedPageParams(perPage: int, page: int): seq<Param> {
    [("page", PInt(page)), ("per_page", PInt(perPage)), ("sort", PStr("updated"))]
  }

  /** `sort_keys=True` puts "page" first, then "per_page", then "sort". */
  lemma SortPageParams(perPage: int, page: int)
    ensures SortByName(PageParams(perPage, page)) == SortedPageParams(perPage, page)
  {
    var sorted := SortedPageParams(perPage, page);
    assert Less("page", "per_page") by {
      assert "page"[1..] == "age" && "per_page"[1..] == "er_page";
    }
    assert Less("per_page", "sort");
    assert Less("page", "sort");
    assert SortedByName(sorted);
    assert multiset(PageParams(perPage, page)) == multiset(sorted);
    SortByNameSorted(PageParams(perPage, page));
    SortByNamePermutes(PageParams(perPage, page));
    SortedUnique(SortByName(PageParams(perPage, page)), sorted);
  }

  /** The part of a page key that names the page. */
  function PageItem(page: int): string {
    DumpString("page") + ": " + IntToString(page)
  }

  /** The part of a page key after the page number. */
  function PageKeyTail(perPage: int): string {
    ", " + DumpItems([("per_page", PInt(perPage)), ("sort", PStr("updated"))]) + "}"
  }

  /** The key of a page request spelled out: the page number comes first. */
  lemma PageKeyForm(o: Owner, perPage: int, page: int)
    ensures PageKey(o, perPage, page) == ListUrl(o) + ("{" + (PageItem(page) + PageKeyTail(perPage)))
  {
    SortPageParams(perPage, page);
    var sorted := SortedPageParams(perPage, page);
    var item := PageItem(page);
    var rest := DumpItems([("per_page", PInt(perPage)), ("sort", PStr("updated"))]);
    assert sorted[1..] == [("per_page", PInt(perPage)), ("sort", PStr("updated"))];
    assert DumpItems(sorted) == (item + ", ") + rest;
    AppendAssoc("{", (item + ", ") + rest, "}");
    AppendAssoc(item, ", ", rest);
    AppendAssoc(item, ", " + rest, "}");
  }

  /** Different pages of one listing are cached under different keys. */
  lemma PageKeysDistinct(o: Owner, perPage: int, a: int, b: int)
    requires a != b
    ensures PageKey(o, perPage, a) != PageKey(o, perPage, b)
  {
    PageKeyForm(o, perPage, a);
    PageKeyForm(o, perPage, b);
    var u := ListUrl(o);
    var t := PageKeyTail(perPage);
    var ia, ib := PageItem(a), PageItem(b);
    if u + ("{" + (ia + t)) == u + ("{" + (ib + t)) {
      assert "{" + (ia + t) == (u + ("{" + (ia + t)))[|u|..];
      assert ia + t == ("{" + (ia + t))[1..];
      assert ia + t == ib + t;
      assert |ia| == |ib|;
      assert ia == (ia + t)[..|ia|];
      assert ia == ib;
      var p := DumpString("page") + ": ";
      assert IntToString(a) == ia[|p|..];
      assert IntToString(b) == ib[|p|..];
      IntToStringInjective(a, b);
    }
  }

  // ---------------------------------------------------------------------------
  // A listing served page by page
  // ---------------------------------------------------------------------------

  function Flatten(batches: seq<seq<Repository>>): seq<Repository>
    decreases |batches|
  {
    if |batches| == 0 then [] else batches[0] + Flatten(batches[1..])
  }

  /** The server answers 200 with a list of the given records, with rate-limit
      headers the client can read. */
  predicate Serves(x: Exchange, batch: seq<Repository>) {
    && x.response.status == 200
    && x.response.body == Some(JArray(EncodeAll(batch)))
    && StallSeconds(x.response.headers, x.now).Ok?
  }

  /** A listing stops at its first page when that page cannot be walked: a
      request that raises is re-raised as it is, with nothing yielded; a
      truthy page that is not a list raises TypeError; an element that does
      not decode stops the listing with its error, after the records before
      it. */
  lemma PagesRaises(o: Owner, perPage: int, page: int, s: Session)
    ensures var reply := Request(s, ListUrl(o), Some(PageParams(perPage, page)));
      && (reply.result.Err? ==>
            Pages(o, perPage, page, s) == Listing([], [], reply.session, Raised(reply.result.error)))
      && (reply.result.Ok? && Truthy(reply.result.value) && !reply.result.value.JArray? ==>
            Pages(o, perPage, page, s) == Listing([], [reply.result.value], reply.session, Raised(TypeError)))
      && (reply.result.Ok? && Truthy(reply.result.value) && reply.result.value.JArray?
          && DecodeAll(reply.result.value.items).failure.Some? ==>
            var d := DecodeAll(reply.result.value.items);
            Pages(o, perPage, page, s) == Listing(d.records, [reply.result.value], reply.session, Raised(d.failure.value)))
  {
  }

  /** How a listing proceeds after its first page: it stops at an empty page
      and goes on to the next page after a complete one. */
  lemma PagesStep(o: Owner, perPage: int, page: int, s: Session)
    ensures var reply := Request(s, ListUrl(o), Some(PageParams(perPage, page)));
      && (reply.result.Ok? && !Truthy(reply.result.value) ==>
            Pages(o, perPage, page, s) == Listing([], [reply.result.value], reply.session, Finished))
      && (reply.result.Ok? && Complete(reply.result.value) ==>
            var rest := Pages(o, perPage, page + 1, reply.session);
            Pages(o, perPage, page, s)
              == Listing(PageRecords(reply.result.value) + rest.repos, [reply.result.value] + rest.pages, rest.session, rest.stop))
  {
  }

  /** A page request that misses the cache and is served a batch returns the
      batch's encoding and writes at most the file of its own key. */
  lemma ServedPage(o: Owner, perPage: int, page: int, s: Session, batch: seq<Repository>)
    requires |s.script| >= 1 && Serves(s.script[0], batch)
    requires Read(s.store, PageKey(o, perPage, page)) == None
    ensures var reply := Request(s, ListUrl(o), Some(PageParams(perPage, page)));
      && reply.result == Ok(JArray(EncodeAll(batch)))
      && reply.session.script == s.script[1..]
      && reply.session.log == s.log + [PageCall(o, perPage, page)]
      && Unchanged(s.store, reply.session.store, PageKey(o, perPage, page))
  {
    var o := Fetch(s.store, ListUrl(o), Some(PageParams(perPage, page)), s.ttl, s.script[0]);
    assert o.sent.Some?;
  }

  /** Writing the file of one page leaves the other pages of the listing uncached. */
  lemma LaterPagesUncached(o: Owner, perPage: int, page: int, n: int, before: Store, after: Store)
    requires forall p :: page <= p < page + n ==> Read(before, PageKey(o, perPage, p)) == None
    requires Unchanged(before, after, PageKey(o, perPage, page))
    ensures forall p :: page + 1 <= p < page + n ==> Read(after, PageKey(o, perPage, p)) == None
  {
    forall p | page + 1 <= p < page + n
      ensures Read(after, PageKey(o, perPage, p)) == None
    {
      PageKeysDistinct(o, perPage, page, p);
    }
  }

  /** The listing's requests from page `page` on are answered, in turn, with
      the encodings of the given batches. */
  predicate Answers(o: Owner, perPage: int, page: int, s: Session, batches: seq<seq<Repository>>)
    decreases |batches|
  {
    |batches| == 0 ||
      var reply := Request(s, ListUrl(o), Some(PageParams(perPage, page)));
      && reply.result == Ok(JArray(EncodeAll(batches[0])))
      && Answers(o, perPage, page + 1, reply.session, batches[1..])
  }

  /** Uncached pages served by the environment are answered with its batches. */
  lemma {:induction false} ServedAnswers(o: Owner, perPage: int, page: int, s: Session, batches: seq<seq<Repository>>)
    requires |s.script| >= |batches|
    requires forall i :: 0 <= i < |batches| ==> Serves(s.script[i], batches[i])
    requires forall p :: page <= p < page + |batches| ==> Read(s.store, PageKey(o, perPage, p)) == None
    ensures Answers(o, perPage, page, s, batches)
    decreases |batches|
  {
    if |batches| > 0 {
      var reply := Request(s, ListUrl(o), Some(PageParams(perPage, page)));
      var s1 := reply.session;
      ServedPage(o, perPage, page, s, batches[0]);
      LaterPagesUncached(o, perPage, page, |batches|, s.store, s1.store);
      forall i | 0 <= i < |batches[1..]|
        ensures Serves(s1.script[i], batches[1..][i])
      {
        assert Serves(s.script[i + 1], batches[i + 1]);
      }
      ServedAnswers(o, perPage, page + 1, s1, batches[1..]);
    }
  }

  /** A page answered with an empty batch ends the listing. */
  lemma AnsweredEmpty(o: Owner, perPage: int, page: int, s: Session)
    requires Request(s, ListUrl(o), Some(PageParams(perPage, page))).result == Ok(JArray(EncodeAll([])))
    ensures var r := Pages(o, perPage, page, s);
      && r.repos == []
      && r.stop == Finished
      && |r.session.log| == |s.log| + 1
  {
    PagesStep(o, perPage, page, s);
    assert |EncodeAll([])| == 0;
  }

  /** A page answered with a non-empty batch yields the batch and moves on. */
  lemma AnsweredFull(o: Owner, perPage: int, page: int, s: Session, batch: seq<Repository>)
    requires |batch| > 0
    requires Request(s, ListUrl(o), Some(PageParams(perPage, page))).result == Ok(JArray(EncodeAll(batch)))
    ensures var reply := Request(s, ListUrl(o), Some(PageParams(perPage, page)));
      var rest := Pages(o, perPage, page + 1, reply.session);
      && Pages(o, perPage, page, s).repos == batch + rest.repos
      && Pages(o, perPage, page, s).stop == rest.stop
      && Pages(o, perPage, page, s).session == rest.session
  {
    PagesStep(o, perPage, page, s);
    DecodeAllEncodeAll(batch);
    assert Complete(JArray(EncodeAll(batch)));
  }

  /** Answered with non-empty batches followed by an empty one, the listing
      yields exactly the records of all batches, in order, from one request
      per batch. */
  lemma {:induction false} AnsweredListing(o: Owner, perPage: int, page: int, s: Session, batches: seq<seq<Repository>>)
    requires |batches| >= 1 && Answers(o, perPage, page, s, batches)
    requires |batches[|batches| - 1]| == 0
    requires forall i :: 0 <= i < |batches| - 1 ==> |batches[i]| > 0
    ensures var r := Pages(o, perPage, page, s);
      && r.repos == Flatten(batches)
      && r.stop == Finished
      && |r.session.log| == |s.log| + |batches|
    decreases |batches|
  {
    if |batches| == 1 {
      assert Flatten(batches) == batches[0] + Flatten(batches[1..]);
      AnsweredEmpty(o, perPage, page, s);
    } else {
      var later := batches[1..];
      LaterBatches(batches);
      var reply := Request(s, ListUrl(o), Some(PageParams(perPage, page)));
      AnsweredListing(o, perPage, page + 1, reply.session, later);
      AnsweredMore(o, perPage, page, s, batches);
    }
  }

  /** Dropping the first of several batches keeps the empty one last and
      the others non-empty. */
  lemma LaterBatches(batches: seq<seq<Repository>>)
    requires |batches| >= 2 && |batches[|batches| - 1]| == 0
    requires forall i :: 0 <= i < |batches| - 1 ==> |batches[i]| > 0
    ensures var later := batches[1..];
      && |later| >= 1 && |later[|later| - 1]| == 0
      && forall i :: 0 <= i < |later| - 1 ==> |later[i]| > 0
  {
    var later := batches[1..];
    assert later[|later| - 1] == batches[|batches| - 1];
    forall i | 0 <= i < |later| - 1 ensures |later[i]| > 0 {
      assert later[i] == batches[i + 1];
    }
  }

  /** A non-empty first batch followed by a listing that finishes. */
  lemma AnsweredMore(o: Owner, perPage: int, page: int, s: Session, batches: seq<seq<Repository>>)
    requires |batches| >= 2 && |batches[0]| > 0
    requires Request(s, ListUrl(o), Some(PageParams(perPage, page))).result == Ok(JArray(EncodeAll(batches[0])))
    requires var reply := Request(s, ListUrl(o), Some(PageParams(perPage, page)));
      var rest := Pages(o, perPage, page + 1, reply.session);
      && rest.repos == Flatten(batches[1..])
      && rest.stop == Finished
      && |rest.session.log| == |reply.session.log| + |batches| - 1
    ensures var r := Pages(o, perPage, page, s);
      && r.repos == Flatten(batches)
      && r.stop == Finished
      && |r.session.log| == |s.log| + |batches|
  {
    assert Flatten(batches) == batches[0] + Flatten(batches[1..]);
    AnsweredFull(o, perPage, page, s, batches[0]);
  }

  /** With nothing cached for the listing's pages and a server that answers
      pages of records ending with an empty page, the listing yields exactly
      the records of all pages, in order, from exactly one request per page
      (pages of sizes 100, 100, 0 give 200 records from 3 requests). */
  lemma ServedListing(o: Owner, perPage: int, page: int, s: Session, batches: seq<seq<Repository>>)
    requires |batches| >= 1 && |s.script| >= |batches|
    requires |batches[|batches| - 1]| == 0
    requires forall i :: 0 <= i < |batches| - 1 ==> |batches[i]| > 0
    requires forall i :: 0 <= i < |batches| ==> Serves(s.script[i], batches[i])
    requires forall p :: page <= p < page + |batches| ==> Read(s.store, PageKey(o, perPage, p)) == None
    ensures var r := Pages(o, perPage, page, s);
      && r.repos == Flatten(batches)
      && r.stop == Finished
      && |r.session.log| == |s.log| + |batches|
  {
    ServedAnswers(o, perPage, page, s, batches);
    AnsweredListing(o, perPage, page, s, batches);
  }
}

=== FILE: rate_limit.dfy ===
/** Rate-limit pacing (`_handle_rate_limit` in core/github_client.py). The
    blocking `time.sleep` is replaced by the number of seconds the client
    would sleep; 0 means it does not sleep. */
module RateLimit {
  import opened Base
  import opened Strings

  const RemainingHeader := "X-RateLimit-Remaining"
  const ResetHeader := "X-RateLimit-Reset"

  /** `int(x)` for a float: truncation toward zero. */
  function Trunc(x: real): (n: int)
    ensures x >= 0.0 ==> n as real <= x < n as real + 1.0
    ensures x < 0.0 ==> n as real - 1.0 < x <= n as real
  {
    if x >= 0.0 then x.Floor else -((-x).Floor)
  }

  /** `int(headers.get(name, default))` where the header value is a string. */
  function HeaderInt(headers: map<string, string>, name: string, default: int): (r: Result<int>)
    // A missing header gives the default; a present one is parsed, and a
    // value `int()` rejects raises ValueError.
    ensures name !in headers ==> r == Ok(default)
    ensures name in headers ==> (r.Ok? <==> ParseInt(headers[name]).Some?)
    ensures name in headers && r.Ok? ==> ParseInt(headers[name]) == Some(r.value)
    ensures r.Err? ==> r.error == ValueError
  {
    if name in headers then
      match ParseInt(headers[name])
      case Some(n) => Ok(n)
      case None => Err(ValueError)
    else Ok(default)
  }

  /** A header carrying the decimal rendering of an integer is read back as
      that integer, whatever the default. */
  lemma HeaderIntReadsRendered(headers: map<string, string>, name: string, default: int, n: int)
    ensures HeaderInt(headers[name := IntToString(n)], name, default) == Ok(n)
  {
    ParseIntOfIntToString(n);
  }

  /** Seconds to sleep after a 200 response that carried `headers`, read at
      clock time `now`. The remaining-quota header defaults to 1; the reset
      header defaults to the current time. */
  function StallSeconds(headers: map<string, string>, now: real): (r: Result<nat>)
    // A malformed remaining-quota header always raises; a malformed reset
    // header raises only when the quota is exhausted.
    ensures HeaderInt(headers, RemainingHeader, 1).Err? ==> r == Err(ValueError)
    ensures r.Ok? ==> HeaderInt(headers, RemainingHeader, 1).Ok?
    // The client sleeps exactly when the remaining quota is at most 0;
    // a missing header never causes a sleep.
    ensures r.Ok? ==> (r.value > 0 <==> HeaderInt(headers, RemainingHeader, 1).value <= 0)
    ensures RemainingHeader !in headers ==> r == Ok(0)
    ensures HeaderInt(headers, RemainingHeader, 1).Ok? && HeaderInt(headers, RemainingHeader, 1).value > 0 ==>
      r == Ok(0)
    ensures (HeaderInt(headers, RemainingHeader, 1).Ok? && HeaderInt(headers, RemainingHeader, 1).value <= 0
             && HeaderInt(headers, ResetHeader, Trunc(now)).Err?) ==> r == Err(ValueError)
    // When it sleeps, it sleeps at least one second and until the reset time,
    // and no longer than needed to reach either.
    ensures r.Ok? && r.value > 0 ==>
      && HeaderInt(headers, ResetHeader, Trunc(now)).Ok?
      && var reset := HeaderInt(headers, ResetHeader, Trunc(now)).value;
      && Trunc(now) + r.value >= reset
      && (r.value == 1 || Trunc(now) + r.value == reset)
    ensures r.Ok? && r.value > 0 && ResetHeader !in headers ==> r.value == 1
    ensures r.Err? ==> r.error == ValueError
  {
    match HeaderInt(headers, RemainingHeader, 1)
    case Err(e) => Err(e)
    case Ok(remaining) =>
      if remaining > 0 then Ok(0)
      else
        match HeaderInt(headers, ResetHeader, Trunc(now))
        case Err(e) => Err(e)
        case Ok(reset) =>
          if reset - Trunc(now) > 1 then Ok(reset - Trunc(now)) else Ok(1)
  }

  /** The example of a drained quota: `remaining = 0`, `reset = now + 5` at a
      whole-second clock reading sleeps for five seconds. */
  lemma DrainedQuotaWaitsForReset(now: int)
    requires now >= 0
    ensures StallSeconds(map[RemainingHeader := "0", ResetHeader := IntToString(now + 5)], now as real) == Ok(5)
  {
    ParseIntOfIntToString(now + 5);
    assert ParseInt("0") == Some(0) by {
      assert AllDigits("0");
    }
    assert Trunc(now as real) == now;
  }
}

=== FILE: repositories.dfy ===
/** The `Repository` record of core/github_client.py and its decoding from one
    JSON object of a listing page (the `Repository(name=repo["name"], ...)`
    expression of the paginators). */
module Repositories {
  import opened Base
  import opened Json

  /** An immutable repository record; `language` is None for JSON null. */
  datatype Repository = Repository(
    name: string,
    fullName: string,
    isFork: bool,
    sizeKb: int,
    language: Option<string>,
    createdAt: string,
    updatedAt: string)

  /** The JSON field each record field is copied from, in the order the source reads them. */
  const Fields := ["name", "full_name", "fork", "size", "language", "created_at", "updated_at"]

  /** The JSON object a record is decoded from, restricted to the seven fields. */
  function Encode(r: Repository): (v: Json)
    ensures v.JObject? && v.fields.Keys == set f | f in Fields
  {
    JObject(map[
      "name" := JStr(r.name),
      "full_name" := JStr(r.fullName),
      "fork" := JBool(r.isFork),
      "size" := JInt(r.sizeKb),
      "language" := (match r.language case Some(l) => JStr(l) case None => JNull),
      "created_at" := JStr(r.createdAt),
      "updated_at" := JStr(r.updatedAt)])
  }

  predicate HasAllFields(m: map<string, Json>) {
    forall f :: f in Fields ==> f in m
  }

  predicate WellTyped(m: map<string, Json>)
    requires HasAllFields(m)
  {
    && m["name"].JStr?
    && m["full_name"].JStr?
    && m["fork"].JBool?
    && m["size"].JInt?
    && (m["language"].JStr? || m["language"].JNull?)
    && m["created_at"].JStr?
    && m["updated_at"].JStr?
  }

  /** One record from one element of a page. Indexing anything but an object
      with a string key is a `TypeError`; a missing field is a `KeyError`. */
  function Decode(v: Json): (r: Result<Repository>)
    ensures !v.JObject? ==> r == Err(TypeError)
    ensures v.JObject? && !HasAllFields(v.fields) ==> r == Err(KeyError)
    ensures r.Ok? <==> v.JObject? && HasAllFields(v.fields) && WellTyped(v.fields)
    ensures r.Ok? ==> Encode(r.value).fields.Items <= v.fields.Items
    // Every field is copied verbatim: the object agrees with the record's
    // encoding on all seven fields (and may hold others).
  {
    match v
    case JObject(m) =>
      if !HasAllFields(m) then Err(KeyError)
      else if !WellTyped(m) then Err(TypeError)
      else
        Ok(Repository(
          m["name"].s,
          m["full_name"].s,
          m["fork"].b,
          m["size"].i,
          if m["language"].JStr? then Some(m["language"].s) else None,
          m["created_at"].s,
          m["updated_at"].s))
    case _ => Err(TypeError)
  }

  /** Decoding inverts encoding. */
  lemma DecodeEncode(r: Repository)
    ensures Decode(Encode(r)) == Ok(r)
  {
    var m := Encode(r).fields;
    assert HasAllFields(m);
    assert m["name"] == JStr(r.name) && m["full_name"] == JStr(r.fullName);
    assert m["fork"] == JBool(r.isFork) && m["size"] == JInt(r.sizeKb);
    assert m["created_at"] == JStr(r.createdAt) && m["updated_at"] == JStr(r.updatedAt);
    assert m["language"] == (match r.language case Some(l) => JStr(l) case None => JNull);
    assert WellTyped(m);
  }

  /** The records decoded from a page's elements, in order, and the error that
      stopped the iteration, if any. */
  datatype Decoded = Decoded(records: seq<Repository>, failure: Option<Error>)

  /** `for repo in data: yield Repository(...)`: records are produced in page
      order up to the first element that cannot be decoded. */
  function DecodeAll(items: seq<Json>): (d: Decoded)
    ensures d.failure.None? ==> |d.records| == |items|
    ensures d.failure.Some? ==> |d.records| < |items| && Decode(items[|d.records|]) == Err(d.failure.value)
    ensures forall i :: 0 <= i < |d.records| ==> Decode(items[i]) == Ok(d.records[i])
    decreases |items|
  {
    if |items| == 0 then Decoded([], None)
    else
      match Decode(items[0])
      case Err(e) => Decoded([], Some(e))
      case Ok(r) =>
        var rest := DecodeAll(items[1..]);
        Decoded([r] + rest.records, rest.failure)
  }

  function EncodeAll(rs: seq<Repository>): (items: seq<Json>)
    ensures |items| == |rs|
    ensures forall i :: 0 <= i < |rs| ==> items[i] == Encode(rs[i])
  {
    seq(|rs|, i requires 0 <= i < |rs| => Encode(rs[i]))
  }

  /** A page of encoded records decodes to exactly those records. */
  lemma {:induction false} DecodeAllEncodeAll(rs: seq<Repository>)
    ensures DecodeAll(EncodeAll(rs)) == Decoded(rs, None)
  {
    var d := DecodeAll(EncodeAll(rs));
    forall i | 0 <= i < |rs| ensures Decode(EncodeAll(rs)[i]) == Ok(rs[i]) {
      DecodeEncode(rs[i]);
    }
    if d.failure.Some? {
      DecodeEncode(rs[|d.records|]);
      assert false;
    }
    assert d.records == rs;
  }
}

=== FILE: strings.dfy ===
/** String helpers the client relies on: Python's ordering of `str` values
    (used by `json.dumps(..., sort_keys=True)`), decimal rendering of integers
    (used by `json.dumps`) and its inverse `int(str)` (used on rate-limit
    headers), and the substring test behind `"commit" in some_str`. */
module Strings {
  import opened Base

  // ---------------------------------------------------------------------------
  // Ordering: Python compares str values lexicographically by code point.
  // ---------------------------------------------------------------------------

  /** `a < b` on Python strings. */
  predicate Less(a: string, b: string)
    decreases |a|
  {
    if |a| == 0 then |b| > 0
    else if |b| == 0 then false
    else if a[0] != b[0] then a[0] < b[0]
    else Less(a[1..], b[1..])
  }

  lemma {:induction false} LessTransitive(a: string, b: string, c: string)
    requires Less(a, b) && Less(b, c)
    ensures Less(a, c)
    decreases |a|
  {
    if |a| > 0 && a[0] == b[0] && b[0] == c[0] {
      LessTransitive(a[1..], b[1..], c[1..]);
    }
  }

  /** Any two distinct strings are ordered one way or the other. */
  lemma {:induction false} LessTotal(a: string, b: string)
    ensures a == b || Less(a, b) || Less(b, a)
    decreases |a|
  {
    if |a| > 0 && |b| > 0 && a[0] == b[0] {
      LessTotal(a[1..], b[1..]);
      if a[1..] == b[1..] {
        assert a == [a[0]] + a[1..] && b == [b[0]] + b[1..];
      }
    }
  }

  lemma {:induction false} LessAsymmetric(a: string, b: string)
    requires Less(a, b)
    ensures !Less(b, a)
    decreases |a|
  {
    if |a| > 0 && |b| > 0 && a[0] == b[0] {
      LessAsymmetric(a[1..], b[1..]);
    }
  }

  // ---------------------------------------------------------------------------
  // Decimal digits
  // ---------------------------------------------------------------------------

  predicate IsDigit(c: char) {
    '0' <= c <= '9'
  }

  predicate AllDigits(s: string) {
    forall i :: 0 <= i < |s| ==> IsDigit(s[i])
  }

  function DigitChar(d: nat): (c: char)
    requires d < 10
    ensures IsDigit(c) && (c as int) - ('0' as int) == d
  {
    (('0' as int) + d) as char
  }

  /** The number a string of ASCII digits denotes. */
  function DigitsValue(s: string): nat
    requires AllDigits(s)
    decreases |s|
  {
    if |s| == 0 then 0
    else DigitsValue(s[..|s| - 1]) * 10 + ((s[|s| - 1] as int) - ('0' as int))
  }

  /** `str(n)` for a non-negative integer: shortest decimal form. */
  function NatToString(n: nat): (s: string)
    ensures |s| >= 1 && AllDigits(s)
    ensures n >= 10 ==> |s| >= 2
    decreases n
  {
    if n < 10 then [DigitChar(n)]
    else NatToString(n / 10) + [DigitChar(n % 10)]
  }

  /** `str(i)` / `json.dumps(i)` for an integer. */
  function IntToString(i: int): string {
    if i < 0 then "-" + NatToString(-i) else NatToString(i)
  }

  /** `int(s)` for a string: an optional sign followed by one or more ASCII
      digits; anything else is a `ValueError` (None). */
  function ParseInt(s: string): (r: Option<int>)
    ensures r.Some? ==> |s| >= 1
    ensures |s| >= 1 && AllDigits(s) ==> r == Some(DigitsValue(s))
  {
    if |s| >= 2 && (s[0] == '-' || s[0] == '+') && AllDigits(s[1..]) then
      Some(if s[0] == '-' then -(DigitsValue(s[1..]) as int) else DigitsValue(s[1..]))
    else if |s| >= 1 && AllDigits(s) then
      Some(DigitsValue(s))
    else
      None
  }

  lemma {:induction false} DigitsOfNatToString(n: nat)
    ensures DigitsValue(NatToString(n)) == n
    decreases n
  {
    var s := NatToString(n);
    if n >= 10 {
      DigitsOfNatToString(n / 10);
      assert s[..|s| - 1] == NatToString(n / 10);
    }
  }

  /** `int(str(i)) == i`: the header parser inverts the decimal renderer. */
  lemma ParseIntOfIntToString(i: int)
    ensures ParseInt(IntToString(i)) == Some(i)
  {
    if i < 0 {
      var n := NatToString(-i);
      DigitsOfNatToString(-i);
      var s := "-" + n;
      assert s[0] == '-' && s[1..] == n;
      assert ParseInt(s) == Some(-(DigitsValue(n) as int));
    } else {
      var n := NatToString(i);
      DigitsOfNatToString(i);
      assert IsDigit(n[0]);
      assert ParseInt(n) == Some(DigitsValue(n));
    }
  }

  /** Distinct integers render to distinct strings. */
  lemma IntToStringInjective(i: int, j: int)
    requires IntToString(i) == IntToString(j)
    ensures i == j
  {
    ParseIntOfIntToString(i);
    ParseIntOfIntToString(j);
  }

  // ---------------------------------------------------------------------------
  // Substrings
  // ---------------------------------------------------------------------------

  /** Python's `sub in s` for two strings. */
  predicate Contains(s: string, sub: string)
    decreases |s|
  {
    if |sub| > |s| then false
    else s[..|sub|] == sub || (|s| > 0 && Contains(s[1..], sub))
  }

  /** A witness position of a substring found by `Contains`. */
  lemma {:induction false} ContainsWitness(s: string, sub: string) returns (i: int)
    requires Contains(s, sub)
    ensures 0 <= i <= |s| - |sub| && s[i..i + |sub|] == sub
    decreases |s|
  {
    if s[..|sub|] == sub {
      i := 0;
    } else {
      var j := ContainsWitness(s[1..], sub);
      assert s[1..][j..j + |sub|] == s[j + 1..j + 1 + |sub|];
      i := j + 1;
    }
  }

  /** Any occurrence of `sub` in `s` is found by `Contains`. */
  lemma {:induction false} ContainsAt(s: string, sub: string, i: int)
    requires 0 <= i <= |s| - |sub| && s[i..i + |sub|] == sub
    ensures Contains(s, sub)
    decreases i
  {
    if i > 0 {
      assert s[1..][i - 1..i - 1 + |sub|] == s[i..i + |sub|];
      ContainsAt(s[1..], sub, i - 1);
    }
  }

  /** `sub` occurs in `s` at position `i`. */
  predicate OccursAt(s: string, sub: string, i: int) {
    0 <= i <= |s| - |sub| && s[i..i + |sub|] == sub
  }

  /** `sub in s` holds exactly when `sub` occurs at some position. */
  lemma ContainsOccurs(s: string, sub: string)
    ensures Contains(s, sub) <==> exists i :: OccursAt(s, sub, i)
  {
    if Contains(s, sub) {
      var i := ContainsWitness(s, sub);
      assert OccursAt(s, sub, i);
    } else {
      forall i | OccursAt(s, sub, i)
        ensures false
      {
        ContainsAt(s, sub, i);
      }
    }
  }

  // ---------------------------------------------------------------------------
  // Removing a character
  // ---------------------------------------------------------------------------

  /** `s.replace(c, "")` for a single character `c`: every occurrence of `c`
      dropped, every other character kept in order. */
  function Without(s: string, c: char): string
    decreases |s|
  {
    if |s| == 0 then ""
    else if s[0] == c then Without(s[1..], c) else [s[0]] + Without(s[1..], c)
  }

  /** `s.replace(c, "")` leaves no `c` and every other character as often as
      it was. */
  lemma {:induction false} WithoutSpec(s: string, c: char)
    ensures c !in Without(s, c)
    ensures forall x :: x != c ==> multiset(Without(s, c))[x] == multiset(s)[x]
    decreases |s|
  {
    if |s| > 0 {
      WithoutSpec(s[1..], c);
      assert s == [s[0]] + s[1..];
    }
  }

  /** Removing a character that does not occur changes nothing, so removing it
      twice is the same as removing it once. */
  lemma {:induction false} WithoutAbsent(s: string, c: char)
    requires c !in s
    ensures Without(s, c) == s
    decreases |s|
  {
    if |s| > 0 {
      assert c !in s[1..];
      WithoutAbsent(s[1..], c);
    }
  }

  /** Removal keeps the order of what remains: removing from a concatenation
      is removing from each part. */
  lemma {:induction false} WithoutAppend(a: string, b: string, c: char)
    ensures Without(a + b, c) == Without(a, c) + Without(b, c)
    decreases |a|
  {
    if |a| > 0 {
      assert (a + b)[0] == a[0] && (a + b)[1..] == a[1..] + b;
      WithoutAppend(a[1..], b, c);
    } else {
      assert a + b == b;
    }
  }

  /** Removing a character twice is the same as removing it once. */
  lemma WithoutIdempotent(s: string, c: char)
    ensures Without(Without(s, c), c) == Without(s, c)
  {
    WithoutSpec(s, c);
    WithoutAbsent(Without(s, c), c);
  }
}

=== FILE: timeline.dfy ===
/** `TimelineMetric.yearly_average_gap` (core/metrics/timeline.py): list a
    user's repositories, fetch each one's commits as the listing goes, and
    average the whole-day gaps per calendar year of the later commit.

    The calendar year of an instant is a parameter `yearOf`; the mean is
    exact and `round(x, 2)` is a parameter. */
module Timeline {
  import opened Base
  import opened Json
  import opened Client
  import opened Repositories
  import opened Pagination
  import opened Dates
  import opened Commits
  import opened Consistency

  // ---------------------------------------------------------------------------
  // Gaps by year
  // ---------------------------------------------------------------------------

  /** The gaps of an ascending run of dates, each labelled with the year of
      the later of its two dates. */
  function Attributed(d: seq<Instant>, yearOf: Instant -> int): (pairs: seq<(int, int)>)
    ensures |pairs| == |Gaps(d)|
    decreases |d|
  {
    if |d| < 2 then [] else [(yearOf(d[1]), DaysBetween(d[0], d[1]))] + Attributed(d[1..], yearOf)
  }

  /** Pair `i` is gap `i` of the run, filed under the year of date `i + 1`. */
  lemma {:induction false} AttributedIndex(d: seq<Instant>, yearOf: Instant -> int, i: int)
    requires 0 <= i < |d| - 1
    ensures Attributed(d, yearOf)[i] == (yearOf(d[i + 1]), Gaps(d)[i])
    decreases |d|
  {
    GapsIndex(d, i);
    if i > 0 {
      AttributedIndex(d[1..], yearOf, i - 1);
    }
  }

  /** `gaps_by_year`: a `defaultdict(list)`, a missing year reading as []. */
  type Buckets = map<int, seq<int>>

  function Get(b: Buckets, y: int): seq<int> {
    if y in b then b[y] else []
  }

  /** `gaps_by_year[year].append(gap)` for each pair in turn. */
  function AddGaps(b: Buckets, pairs: seq<(int, int)>): Buckets
    decreases |pairs|
  {
    if |pairs| == 0 then b
    else AddGaps(b[pairs[0].0 := Get(b, pairs[0].0) + [pairs[0].1]], pairs[1..])
  }

  /** The gaps among `pairs` filed under year `y`, in order. */
  function ValuesFor(pairs: seq<(int, int)>, y: int): (v: seq<int>)
    ensures |v| <= |pairs|
    decreases |pairs|
  {
    if |pairs| == 0 then []
    else (if pairs[0].0 == y then [pairs[0].1] else []) + ValuesFor(pairs[1..], y)
  }

  /** Appending pairs adds each gap to the end of its own year's list and to
      no other. */
  lemma {:induction false} AddGapsGet(b: Buckets, pairs: seq<(int, int)>, y: int)
    ensures Get(AddGaps(b, pairs), y) == Get(b, y) + ValuesFor(pairs, y)
    decreases |pairs|
  {
    if |pairs| > 0 {
      var b1 := b[pairs[0].0 := Get(b, pairs[0].0) + [pairs[0].1]];
      AddGapsGet(b1, pairs[1..], y);
      if pairs[0].0 == y {
        assert Get(b1, y) == Get(b, y) + [pairs[0].1];
        AppendAssoc(Get(b, y), [pairs[0].1], ValuesFor(pairs[1..], y));
      } else {
        assert Get(b1, y) == Get(b, y);
        assert ValuesFor(pairs, y) == [] + ValuesFor(pairs[1..], y) == ValuesFor(pairs[1..], y);
      }
    }
  }

  /** Appending pairs creates exactly the years that receive a gap. */
  lemma {:induction false} AddGapsKeys(b: Buckets, pairs: seq<(int, int)>, y: int)
    ensures y in AddGaps(b, pairs) <==> y in b || |ValuesFor(pairs, y)| > 0
    decreases |pairs|
  {
    if |pairs| > 0 {
      AddGapsKeys(b[pairs[0].0 := Get(b, pairs[0].0) + [pairs[0].1]], pairs[1..], y);
    }
  }

  /** The buckets after each repository's sorted dates are filed in turn. */
  function Bucketize(b: Buckets, dates: seq<seq<Instant>>, yearOf: Instant -> int): Buckets
    decreases |dates|
  {
    if |dates| == 0 then b
    else Bucketize(AddGaps(b, Attributed(SortDates(dates[0]), yearOf)), dates[1..], yearOf)
  }

  /** The gaps filed under year `y` by a run of repositories, in order. */
  function YearGaps(dates: seq<seq<Instant>>, yearOf: Instant -> int, y: int): seq<int>
    decreases |dates|
  {
    if |dates| == 0 then []
    else ValuesFor(Attributed(SortDates(dates[0]), yearOf), y) + YearGaps(dates[1..], yearOf, y)
  }

  /** Year `y` ends up holding exactly the gaps filed under it, repository
      by repository, after what it held before. */
  lemma {:induction false} BucketizeGet(b: Buckets, dates: seq<seq<Instant>>, yearOf: Instant -> int, y: int)
    ensures Get(Bucketize(b, dates, yearOf), y) == Get(b, y) + YearGaps(dates, yearOf, y)
    decreases |dates|
  {
    if |dates| > 0 {
      var pairs := Attributed(SortDates(dates[0]), yearOf);
      AddGapsGet(b, pairs, y);
      BucketizeGet(AddGaps(b, pairs), dates[1..], yearOf, y);
      AppendAssoc(Get(b, y), ValuesFor(pairs, y), YearGaps(dates[1..], yearOf, y));
    }
  }

  /** Year `y` is present exactly when it holds a gap or already was. */
  lemma {:induction false} BucketizeKeys(b: Buckets, dates: seq<seq<Instant>>, yearOf: Instant -> int, y: int)
    ensures y in Bucketize(b, dates, yearOf) <==> y in b || |YearGaps(dates, yearOf, y)| > 0
    decreases |dates|
  {
    if |dates| > 0 {
      var pairs := Attributed(SortDates(dates[0]), yearOf);
      AddGapsKeys(b, pairs, y);
      BucketizeKeys(AddGaps(b, pairs), dates[1..], yearOf, y);
    }
  }

  // ---------------------------------------------------------------------------
  // The dates of one repository
  // ---------------------------------------------------------------------------

  /** The generator inside `sorted(...)` over a commit list: the first element
      whose date cannot be read raises. */
  function AllDates(items: seq<Json>, fromIso: string -> Option<Instant>): (r: Result<seq<Instant>>)
    ensures r.Ok? <==> forall i :: 0 <= i < |items| ==> CommitDate(items[i], fromIso).Ok?
    ensures r.Ok? ==> |r.value| == |items|
    ensures r.Ok? ==> forall i :: 0 <= i < |items| ==> CommitDate(items[i], fromIso) == Ok(r.value[i])
    ensures r.Err? ==> exists i :: 0 <= i < |items| && CommitDate(items[i], fromIso) == Err(r.error)
    decreases |items|
  {
    if |items| == 0 then Ok([])
    else
      assert forall i :: 1 <= i < |items| ==> items[i] == items[1..][i - 1];
      match CommitDate(items[0], fromIso)
      case Err(e) => Err(e)
      case Ok(d) =>
        var rest := AllDates(items[1..], fromIso);
        if rest.Err? then rest else Ok([d] + rest.value)
  }

  /** `for c in commits` over whatever the request returned. A list yields its
      elements; an object yields its keys and a string its characters, on
      which `c["commit"]` is a TypeError; nothing else is iterable. */
  function StrictDates(commits: Json, fromIso: string -> Option<Instant>): (r: Result<seq<Instant>>)
    ensures commits.JArray? ==> r == AllDates(commits.items, fromIso)
    ensures !commits.JArray? ==> (r.Ok? <==> (commits.JObject? || commits.JStr?) && !Truthy(commits))
    ensures !commits.JArray? && r.Ok? ==> r.value == []
    ensures r.Err? && !commits.JArray? ==> r.error == TypeError
  {
    match commits
    case JArray(items) => AllDates(items, fromIso)
    case JObject(m) => if |m| == 0 then Ok([]) else Err(TypeError)
    case JStr(s) => if |s| == 0 then Ok([]) else Err(TypeError)
    case _ => Err(TypeError)
  }

  /** The two metrics read the same commit list differently: an element
      without "commit" is skipped by the consistency metric and makes the
      timeline raise KeyError. */
  lemma StrictRejectsWhatTolerantSkips(items: seq<Json>, fromIso: string -> Option<Instant>, k: int)
    requires 0 <= k < |items| && items[k].JObject? && "commit" !in items[k].fields
    requires forall i :: 0 <= i < k ==> CommitDate(items[i], fromIso).Ok?
    ensures MentionsCommit(items[k]) == Ok(false)
    ensures StrictDates(JArray(items), fromIso) == Err(KeyError)
  {
    var r := AllDates(items, fromIso);
    if r.Err? {
      AllDatesFirstError(items, fromIso, k);
    }
  }

  /** When the elements before `k` all have dates and element `k` does not,
      the generator raises element `k`'s error. */
  lemma {:induction false} AllDatesFirstError(items: seq<Json>, fromIso: string -> Option<Instant>, k: int)
    requires 0 <= k < |items| && CommitDate(items[k], fromIso).Err?
    requires forall i :: 0 <= i < k ==> CommitDate(items[i], fromIso).Ok?
    ensures AllDates(items, fromIso) == Err(CommitDate(items[k], fromIso).error)
    decreases |items|
  {
    if k > 0 {
      assert forall i :: 0 <= i < k - 1 ==> items[1..][i] == items[i + 1];
      AllDatesFirstError(items[1..], fromIso, k - 1);
    }
  }

  // ---------------------------------------------------------------------------
  // The interleaved walk
  // ---------------------------------------------------------------------------

  /** The buckets (or the exception), the listing pages fetched, the records
      walked, the dates fetched for each, and the session afterwards. */
  datatype Walk = Walk(result: Result<Buckets>, pages: seq<Json>, repos: seq<Repository>,
                       dates: seq<seq<Instant>>, session: Session)

  /** What a walk that completed has visited: every page but the last was
      complete and the last was empty; one date list per record; the buckets
      are those records' gaps filed in order. */
  predicate Walked(b: Buckets, yearOf: Instant -> int, w: Walk) {
    w.result.Ok? ==>
      && |w.pages| > 0 && !Truthy(w.pages[|w.pages| - 1]) && CompleteUntilLast(w.pages)
      && |w.dates| == |w.repos|
      && w.result.value == Bucketize(b, w.dates, yearOf)
  }

  /** The listing from `page` on, with the commits of each record requested
      as soon as the generator yields it. */
  function WalkPages(o: Owner, perPage: int, page: int, s: Session, b: Buckets,
                     yearOf: Instant -> int, fromIso: string -> Option<Instant>): (w: Walk)
    ensures Walked(b, yearOf, w)
    ensures w.result.Ok? ==> w.repos == Records(w.pages)
    ensures w.session.ttl == s.ttl
    decreases |s.script|, 0, 0
  {
    var reply := Request(s, ListUrl(o), Some(PageParams(perPage, page)));
    match reply.result
    case Err(e) => Walk(Err(e), [], [], [], reply.session)
    case Ok(data) =>
      if !Truthy(data) then
        LastWalk(b, yearOf, data, reply.session);
        Walk(Ok(b), [data], [], [], reply.session)
      else if !data.JArray? then Walk(Err(TypeError), [data], [], [], reply.session)
      else
        var w := WalkRecords(o, perPage, page, data.items, reply.session, b, yearOf, fromIso);
        NextWalk(b, yearOf, data, w);
        w.(pages := [data] + w.pages)
  }

  /** A walk that ends at an empty page. */
  lemma LastWalk(b: Buckets, yearOf: Instant -> int, data: Json, s: Session)
    requires !Truthy(data)
    ensures Walked(b, yearOf, Walk(Ok(b), [data], [], [], s))
    ensures [] == Records([data])
  {
    FalsyPageIsEmpty(data);
    RecordsCons(data, []);
    assert [data] + [] == [data];
  }

  /** A complete page in front of the walk of the pages after it. */
  lemma NextWalk(b: Buckets, yearOf: Instant -> int, data: Json, w: Walk)
    requires Truthy(data) && data.JArray?
    requires Walked(b, yearOf, w)
    requires w.result.Ok? ==>
      DecodeAll(data.items).failure.None? && w.repos == DecodeAll(data.items).records + Records(w.pages)
    ensures Walked(b, yearOf, w.(pages := [data] + w.pages))
    ensures w.result.Ok? ==> w.repos == Records([data] + w.pages)
  {
    if w.result.Ok? {
      var p := [data] + w.pages;
      assert p[1..] == w.pages;
      assert p[|p| - 1] == w.pages[|w.pages| - 1];
      assert Complete(data);
      assert CompleteUntilLast(p);
      RecordsCons(data, w.pages);
    }
  }

  /** The records of the page being walked, then the pages after it. */
  function WalkRecords(o: Owner, perPage: int, page: int, items: seq<Json>, s: Session, b: Buckets,
                       yearOf: Instant -> int, fromIso: string -> Option<Instant>): (w: Walk)
    ensures Walked(b, yearOf, w)
    ensures w.result.Ok? ==>
      DecodeAll(items).failure.None? && w.repos == DecodeAll(items).records + Records(w.pages)
    ensures w.session.ttl == s.ttl
    decreases |s.script|, 1, |items|
  {
    if |items| == 0 then WalkPages(o, perPage, page + 1, s, b, yearOf, fromIso)
    else
      match Decode(items[0])
      case Err(e) => Walk(Err(e), [], [], [], s)
      case Ok(repo) =>
        var reply := Request(s, CommitsUrl(repo.fullName), Some(CommitsParams()));
        match reply.result
        case Err(e) => Walk(Err(e), [], [repo], [], reply.session)
        case Ok(commits) =>
          match StrictDates(commits, fromIso)
          case Err(e) => Walk(Err(e), [], [repo], [], reply.session)
          case Ok(dates) =>
            var b1 := AddGaps(b, Attributed(SortDates(dates), yearOf));
            var w := WalkRecords(o, perPage, page, items[1..], reply.session, b1, yearOf, fromIso);
            WalkedRecord(items, repo, dates, b, yearOf, w);
            Walk(w.result, w.pages, [repo] + w.repos, [dates] + w.dates, w.session)
  }

  /** A record whose commits were read, followed by a walk of the records
      after it. */
  lemma WalkedRecord(items: seq<Json>, repo: Repository, dates: seq<Instant>, b: Buckets,
                     yearOf: Instant -> int, w: Walk)
    requires |items| > 0 && Decode(items[0]) == Ok(repo)
    requires Walked(AddGaps(b, Attributed(SortDates(dates), yearOf)), yearOf, w)
    requires w.result.Ok? ==>
      DecodeAll(items[1..]).failure.None? && w.repos == DecodeAll(items[1..]).records + Records(w.pages)
    ensures var w1 := Walk(w.result, w.pages, [repo] + w.repos, [dates] + w.dates, w.session);
      && Walked(b, yearOf, w1)
      && (w1.result.Ok? ==>
            DecodeAll(items).failure.None? && w1.repos == DecodeAll(items).records + Records(w1.pages))
  {
    assert ([dates] + w.dates)[1..] == w.dates;
    if w.result.Ok? {
      assert DecodeAll(items).records == [repo] + DecodeAll(items[1..]).records;
      AppendAssoc([repo], DecodeAll(items[1..]).records, Records(w.pages));
    }
  }

  /** A page request whose reply the generator cannot use ends the walk with
      that error: an exception from the request is raised as it is, a page
      that is neither falsy nor a list is a TypeError, and a list page hands
      the walk to its records with nothing caught. */
  lemma PageStep(o: Owner, perPage: int, page: int, s: Session, b: Buckets,
                 yearOf: Instant -> int, fromIso: string -> Option<Instant>)
    ensures var reply := Request(s, ListUrl(o), Some(PageParams(perPage, page)));
      var w := WalkPages(o, perPage, page, s, b, yearOf, fromIso);
      && (reply.result.Err? ==> w.result == Err(reply.result.error))
      && (reply.result.Ok? && !Truthy(reply.result.value) ==> w.result == Ok(b) && w.pages == [reply.result.value])
      && (reply.result.Ok? && Truthy(reply.result.value) && !reply.result.value.JArray? ==>
            w.result == Err(TypeError))
      && (reply.result.Ok? && Truthy(reply.result.value) && reply.result.value.JArray? ==>
            var rest := WalkRecords(o, perPage, page, reply.result.value.items, reply.session, b, yearOf, fromIso);
            && w.result == rest.result
            && w.pages == [reply.result.value] + rest.pages
            && w.dates == rest.dates)
  {
  }

  /** The first record of a page: a record that does not decode, a commits
      request that raises, or a commit list the generator cannot read ends the
      walk with that error; nothing is caught. */
  lemma RecordFailureRaises(o: Owner, perPage: int, page: int, items: seq<Json>, s: Session, b: Buckets,
                            yearOf: Instant -> int, fromIso: string -> Option<Instant>)
    requires |items| > 0
    ensures var w := WalkRecords(o, perPage, page, items, s, b, yearOf, fromIso);
      && (Decode(items[0]).Err? ==> w.result == Err(Decode(items[0]).error))
      && (Decode(items[0]).Ok? ==>
            var reply := Request(s, CommitsUrl(Decode(items[0]).value.fullName), Some(CommitsParams()));
            && (reply.result.Err? ==> w.result == Err(reply.result.error))
            && (reply.result.Ok? && StrictDates(reply.result.value, fromIso).Err? ==>
                  w.result == Err(StrictDates(reply.result.value, fromIso).error)))
  {
  }

  /** A record whose commits were read: the dates walked for it are the ones
      its commits reply holds, its gaps are filed before the rest of the walk
      continues from the session after that reply, and whatever the rest of
      the walk raises is raised. */
  lemma RecordReadContinues(o: Owner, perPage: int, page: int, items: seq<Json>, s: Session, b: Buckets,
                            yearOf: Instant -> int, fromIso: string -> Option<Instant>)
    requires |items| > 0
    ensures Decode(items[0]).Ok? ==>
      var repo := Decode(items[0]).value;
      var reply := Request(s, CommitsUrl(repo.fullName), Some(CommitsParams()));
      reply.result.Ok? && StrictDates(reply.result.value, fromIso).Ok? ==>
        var d := StrictDates(reply.result.value, fromIso).value;
        var rest := WalkRecords(o, perPage, page, items[1..], reply.session,
                                AddGaps(b, Attributed(SortDates(d), yearOf)), yearOf, fromIso);
        var w := WalkRecords(o, perPage, page, items, s, b, yearOf, fromIso);
        && w.result == rest.result
        && w.repos == [repo] + rest.repos
        && w.dates == [d] + rest.dates
        && w.pages == rest.pages
        && w.session == rest.session
  {
  }

  /** After a page's last record the walk requests the next page, from the
      session the last commits reply left, with the buckets built so far. */
  lemma PageEndContinues(o: Owner, perPage: int, page: int, s: Session, b: Buckets,
                         yearOf: Instant -> int, fromIso: string -> Option<Instant>)
    ensures WalkRecords(o, perPage, page, [], s, b, yearOf, fromIso)
         == WalkPages(o, perPage, page + 1, s, b, yearOf, fromIso)
  {
  }

  /** The timeline metric raises on a commit list that the consistency metric
      reads without complaint: when the first repository of the first page
      gets back commits whose element `k` has no "commit", the consistency
      metric's reader skips that element and `yearly_average_gap` raises
      KeyError. */
  lemma MissingCommitRaises(username: string, s: Session, items: seq<Json>, commits: seq<Json>, k: int,
                            yearOf: Instant -> int, fromIso: string -> Option<Instant>, round2: real -> real)
    requires Request(s, ListUrl(User(username)), Some(PageParams(DefaultPerPage, 1))).result == Ok(JArray(items))
    requires |items| > 0 && Decode(items[0]).Ok?
    requires Request(Request(s, ListUrl(User(username)), Some(PageParams(DefaultPerPage, 1))).session,
                     CommitsUrl(Decode(items[0]).value.fullName), Some(CommitsParams())).result
             == Ok(JArray(commits))
    requires 0 <= k < |commits| && commits[k].JObject? && "commit" !in commits[k].fields
    requires forall i :: 0 <= i < k ==> CommitDate(commits[i], fromIso).Ok?
    ensures MentionsCommit(commits[k]) == Ok(false)
    ensures YearlyAverageGap(username, s, yearOf, fromIso, round2).result == Err(KeyError)
  {
    var listing := Request(s, ListUrl(User(username)), Some(PageParams(DefaultPerPage, 1)));
    StrictRejectsWhatTolerantSkips(commits, fromIso, k);
    RecordFailureRaises(User(username), DefaultPerPage, 1, items, listing.session, map[], yearOf, fromIso);
    PageStep(User(username), DefaultPerPage, 1, s, map[], yearOf, fromIso);
  }

  // ---------------------------------------------------------------------------
  // yearly_average_gap
  // ---------------------------------------------------------------------------

  /** `{year: round(mean(gaps), 2) for year, gaps in gaps_by_year.items() if gaps}`. */
  function Averages(b: Buckets, round2: real -> real): (avg: map<int, real>)
    ensures avg.Keys == set y | y in b && |b[y]| > 0
    ensures forall y :: y in avg ==> avg[y] == round2(Mean(b[y]))
  {
    map y | y in b && |b[y]| > 0 :: round2(Mean(b[y]))
  }

  /** The averages per year, the listing and commit walk behind them, and
      the session afterwards. */
  datatype YearlyReply = YearlyReply(result: Result<map<int, real>>, walk: Walk)

  /** `TimelineMetric(client, username).yearly_average_gap()`. */
  function YearlyAverageGap(username: string, s: Session, yearOf: Instant -> int,
                            fromIso: string -> Option<Instant>, round2: real -> real): (r: YearlyReply)
    ensures r.walk == WalkPages(User(username), DefaultPerPage, 1, s, map[], yearOf, fromIso)
    ensures r.result.Ok? <==> r.walk.result.Ok?
    ensures r.result.Err? ==> r.result.error == r.walk.result.error
    ensures r.result.Ok? ==> r.result.value == Averages(r.walk.result.value, round2)
  {
    var w := WalkPages(User(username), DefaultPerPage, 1, s, map[], yearOf, fromIso);
    YearlyReply(if w.result.Ok? then Ok(Averages(w.result.value, round2)) else Err(w.result.error), w)
  }

  /** The years reported are exactly those in which some gap ends, and each
      one's value is the rounded mean of the gaps ending in it, taken over the
      repositories in listing order. */
  lemma YearlyAverageGapSpec(username: string, s: Session, yearOf: Instant -> int,
                             fromIso: string -> Option<Instant>, round2: real -> real, y: int)
    ensures var r := YearlyAverageGap(username, s, yearOf, fromIso, round2);
      r.result.Ok? ==>
        && (y in r.result.value <==> |YearGaps(r.walk.dates, yearOf, y)| > 0)
        && (y in r.result.value ==> r.result.value[y] == round2(Mean(YearGaps(r.walk.dates, yearOf, y))))
  {
    var r := YearlyAverageGap(username, s, yearOf, fromIso, round2);
    if r.result.Err? {
      return;
    }
    var b := r.walk.result.value;
    BucketizeGet(map[], r.walk.dates, yearOf, y);
    BucketizeKeys(map[], r.walk.dates, yearOf, y);
    assert Get(b, y) == YearGaps(r.walk.dates, yearOf, y) by {
      assert Get(map[], y) == [];
      assert [] + YearGaps(r.walk.dates, yearOf, y) == YearGaps(r.walk.dates, yearOf, y);
    }
  }
}
